=== FILE: README.md ===
# Text-adventure command engine in Dafny

This project models the command-dispatch core of a Unity text adventure
(petrushevskiApps/text-adventure) as one sequential state machine, and proves
properties of it. The core covers:

- how typed input is split into a verb and a noun;
- how the noun is resolved against the current room's memory and the player's
  inventory;
- how an entity picks the handler bound to a verb;
- what each of the seven action handlers does;
- how doors, rooms and room memory evolve.

## How the system is represented

- **World** (`world.dfy`). The authored entity graph is an immutable
  `map<Id, Entity>`. An entity has:
  - a name and a description;
  - its ordered children;
  - its ordered verb bindings (`ActionData`: handler, message, negative
    message);
  - a kind: a plain item, a room with its doors, or a door with its target
    room and authored lock default.

  `WellFormed` says every reference resolves and no binding holds a null
  handler.
- **Session** (`state.dfy`). All runtime state is one `Session` record:
  - the inventory;
  - the room memory (`_roomItems`, keyed by lower-cased name);
  - the current room;
  - the per-door lock state (absent means the door's state is `null`);
  - the set of entities whose `Setup` has run;
  - an append-only log of `Display` and `Notify` events, which stands for
    the text and notification displays.

  Every operation is a pure function from a session to a session.
- **Other modules:**
  - `inventory.dfy` and `locks.dfy` model `Inventory` and the lock state of
    `Door`.
  - `listing.dfy` models the list sentence Look builds, both as a function
    and as the `StringBuilder` loop.
  - `engine.dfy` models binding lookup, context narrowing, the seven
    handlers and `SetRoomContext`. These are mutually recursive: Enter leads
    to Narrate.
  - `player.dfy` models `InputProcessor.InputReceived`,
    `PlayerContext.OnInputReceived` and the start sequence of `GameManager`.
  - `scenarios.dfy` plays the start sequence on a small authored world,
    then the commands "take key", "unlock gate" and "enter gate".
- **.NET primitives.** The `Lib` record makes these opaque, total functions
  passed as a parameter:
  - `string.Format` with one argument;
  - `ToLower`;
  - `IsNullOrWhiteSpace`;
  - `Enum.TryParse` (ignoring case);
  - the default `ActionType` value.

  Properties that depend on them are stated in terms of these functions.
- **Crash paths as preconditions.** The source crashes with a
  null-reference error in three places; each becomes a precondition:
  - a binding with a null action that the binding lookup reads. The lookup
    stops at the first match (Item.cs:49), so only bindings up to the first
    match of the verb are read (`World.LookupSafe`,
    `World.LaterBindingsUnread`);
  - a blank noun before any room is current;
  - a handler running on an entity that was never set up, so has no display,
    inventory or player context.

  `Invariant` shows the third never happens during play: everything reachable
  through room memory, the inventory or the current room has been set up.

### Behaviour modelled as written

- **Invalid verb.** `InputReceived` raises the "not valid" notification but
  has no `return` after it, so it still forwards the command, carrying the
  default verb value that the failed `TryParse` leaves behind
  (`Player.InvalidVerbIsForwarded`).
- **Unlock checks only the first item.** The handler's own documentation
  (UnlockAction.cs:9) says it checks that the player holds all required
  items. The loop always breaks after one iteration, so it examines only the
  first (`Engine.FirstKeyHeld`, `Engine.UnlockIgnoresLaterItems`,
  `Engine.FirstKeyCheckIsWeaker`, `Engine.FirstKeyAloneUnlocks`).
- **Inventory key case.** The inventory is keyed by the exact item name, but
  `OnInputReceived` looks it up with the lower-cased noun. An item whose name
  is not already lower case can be named only while some room memory holds it
  (`Player.TakenItemNeedsLowerCaseName`).
- **Look and the inventory.** `AddItems` does not consult the inventory, and
  Take does not remove an item from its room. So a Look remembers a taken
  item again when its room still lists it.
- **Look can initialise a door.** `AddItems` sets up every newly remembered
  entity, and `Door.Setup` gives a door its authored lock state the first
  time. So Look can create a door's lock state, even as unlocked. Look never
  changes a lock state that already exists.

## Model

| member | source | states |
|---|---|---|
| World.OnlyDoorHandlersNarrow | Assets/Scripts/Game/Actions/ActionBase.cs:25-35 | documents the model's reading of the handlers' context types: only the handlers typed on `IDoorContext` (Enter, Unlock) are skipped, and only on an entity that is not a door; the ensures follows from the definitions of `Accepts` and `NeedsDoor`, so it records that reading rather than deriving it |
| World.GetItems | Assets/Scripts/Game/Components/Room.cs:16-22 | a room's items are its children followed by its doors, position by position, with length children + doors; another entity's items are its children |
| World.UnlockItems | Assets/Scripts/Game/Components/Door.cs:27 | a door's required items are exactly what Look lists on that door |
| World.LaterBindingsUnread | Assets/Scripts/Game/Components/Item.cs:47-54 | once a verb has a match, appending any bindings, null ones included, changes neither the lookup's result nor whether it reads a null binding |
| World.FirstMatch | Assets/Scripts/Game/Components/Item.cs:47-54 | the result is a binding whose handler type is the verb and no earlier binding matches; it is absent exactly when no binding matches |
| Inventory.StoreItem | Assets/Scripts/Game/InventorySystem/Inventory.cs:14-17 | success iff the name was absent; afterwards the name is present; on success the item is stored and the size grows by one; on failure the map is unchanged; no entry is overwritten and other keys are unaffected |
| Inventory.ContainsItem | Assets/Scripts/Game/InventorySystem/Inventory.cs:24-27 | true exactly when the key is stored, compared as an exact, case-sensitive string; an empty inventory contains nothing |
| Inventory.GetItem | Assets/Scripts/Game/InventorySystem/Inventory.cs:19-22 | returns the stored item exactly when the key is contained, otherwise nothing |
| Inventory.StoreThenGet | Assets/Scripts/Game/InventorySystem/Inventory.cs:14-27 | getting a name right after storing it returns the item that holds the name: the new one, or the one already there |
| Inventory.RunKeepsEntries | Assets/Scripts/Game/InventorySystem/Inventory.cs:6-28 | across any sequence of store/get/contains operations an entry stays present with the same item |
| Inventory.StoreTwice | Assets/Scripts/Game/InventorySystem/Inventory.cs:16 | storing a new name twice succeeds then fails, and the second store changes nothing |
| Inventory.RepeatedStoreGrowsByOne | Assets/Scripts/Game/InventorySystem/Inventory.cs:14-17 | any number of stores under one new name grows the inventory by exactly one entry, holding the first item |
| Inventory.StoredNameIsStable | Assets/Scripts/Game/InventorySystem/Inventory.cs:16 | further stores under a present name leave the inventory unchanged |
| Locks.IsUnlocked | Assets/Scripts/Game/Components/Door.cs:28 | a door without a state is locked, whatever its authored default; otherwise the state decides |
| Locks.SetupLock | Assets/Scripts/Game/Components/Door.cs:32-40 | the first setup gives the door its authored default; an existing state is kept; other doors are untouched |
| Locks.UnlockDoor | Assets/Scripts/Game/Components/Door.cs:42-48 | the door is unlocked afterwards from any state; other doors are untouched |
| Locks.SetupIdempotent | Assets/Scripts/Game/Components/Door.cs:36 | a second setup, even with another default, is a no-op |
| Locks.UnlockIdempotent | Assets/Scripts/Game/Components/Door.cs:42-48 | unlocking twice is unlocking once |
| Locks.UnlockedStaysUnlocked | Assets/Scripts/Game/Components/Door.cs:28-48 | no sequence of setups and unlocks turns an unlocked door back to locked |
| PlayerState.Setup | Assets/Scripts/Game/Components/Item.cs:37-45 | marks the entity as set up; for a door also performs the one-time lock initialisation; nothing else changes |
| PlayerState.SetupIdempotent | Assets/Scripts/Game/Components/Door.cs:32-40 | setting an entity up twice is setting it up once, so a repeated setup never resets an advanced lock state |
| PlayerState.SetupKeepsLockState | Assets/Scripts/Game/Components/Door.cs:36 | an existing lock state survives any later setup |
| PlayerState.Remember | Assets/Scripts/Game/PlayerContext.cs:59-62 | inserts the entity under its lower-cased name only when the key is absent, and then sets it up; otherwise nothing changes |
| PlayerState.AddItems | Assets/Scripts/Game/PlayerContext.cs:55-64 | the memory keys become the old keys plus the children's lower-cased names; nothing is overwritten; the first child with a fresh key is the one remembered; exactly the newly inserted entities are set up; existing lock states are unchanged and new ones are authored defaults of newly set-up doors |
| PlayerState.AddItemsGivesDoorsLocks | Assets/Scripts/Game/PlayerContext.cs:59-61 | a door that AddItems inserts under a fresh key, with no earlier entry sharing the key, has a lock state afterwards, because its setup ran |
| PlayerState.AddItemsAfterClear | Assets/Scripts/Game/PlayerContext.cs:55-72 | on a cleared memory, AddItems remembers exactly the listed entities' keys, each mapping to a listed entity |
| PlayerState.AddItemsAgain | Assets/Scripts/Game/PlayerContext.cs:57-62 | AddItems over entities whose keys are all remembered changes neither memory nor set-up entities |
| Listing.Body | Assets/Scripts/Game/Actions/LookAction.cs:50-55 | a room look shows the child's name in green followed by a space and its description, whatever the inventory holds; a door look (DoorLookAction.cs:20-27) shows only the name, green when the inventory holds that exact name and red otherwise |
| Listing.Segments | Assets/Scripts/Game/Actions/LookAction.cs:43-46 | one segment per child in child order, each the separator (" and " only before the last of two or more) followed by the child's text |
| Listing.BuildListing | Assets/Scripts/Game/Actions/LookAction.cs:40-48 | the StringBuilder loop appends exactly the concatenation of the segments |
| Listing.ListingOpensWithComma | Assets/Scripts/Game/Actions/LookAction.cs:45-52 | with at least one child the clause starts with ", ", so a single child is never introduced by " and " |
| Listing.ListingOfTwo | Assets/Scripts/Game/Actions/LookAction.cs:43-54 | two children read ", A and B" |
| Listing.ListingOfThree | Assets/Scripts/Game/Actions/LookAction.cs:43-54 | three children read ", A, B and C" |
| Engine.LookAt | Assets/Scripts/Game/Actions/LookAction.cs:25-38 | exactly one line; with no children the failure template with the name and no other change; with children AddItems on the full list, then the success template with the list clause; inventory, room and existing lock states unchanged |
| Engine.UnlockAt | Assets/Scripts/Game/Actions/UnlockAction.cs:21-58 | exactly one line; an unlocked door gives "already unlocked" and no change; a locked door becomes unlocked iff its first required item (if any) is held, showing the message, else the negative message; inventory, memory, room and other doors are unchanged; never relocks |
| Engine.TakeAt | Assets/Scripts/Game/Actions/TakeAction.cs:20-26 | afterwards the inventory holds the name; a new name stores the entity and shows the formatted message, a present one changes nothing and shows the negative message; memory, room and locks unchanged |
| Engine.ReadAt | Assets/Scripts/Game/Actions/ReadAction.cs:19-22 | appends the read template around the message and changes nothing else |
| Engine.NarrateAt | Assets/Scripts/Game/Actions/NarrateAction.cs:18-21 | appends the message verbatim and changes nothing else |
| Engine.Dispatch | Assets/Scripts/Game/Components/Item.cs:47-54 | without a matching binding nothing changes; with one, that first matching binding's handler runs with that binding's message and negative message; every dispatch keeps inventory entries, never relocks, only appends to the log and preserves the set-up invariant; only Enter changes the room; Narrate appends the entity's narration |
| Engine.Execute | Assets/Scripts/Game/Actions/ActionBase.cs:28-35 | a door handler on a non-door changes nothing; otherwise each of the seven handler types runs its own handler (Look with descriptions, DoorLook as a checklist, Enter, Unlock, Take, Read, Narrate) once with the message and negative message unchanged, keeping the session evolution rules |
| Engine.EnterAt | Assets/Scripts/Game/Actions/EnterAction.cs:20-32 | locked: exactly one red line, nothing else; unlocked: the message, then the room banner, then the new room's narration, with the target room current, memory empty and the room set up; lock states and inventory never change |
| Engine.SetRoomContext | Assets/Scripts/Game/PlayerContext.cs:66-72 | memory cleared, the room current and set up, then its narration appended; inventory and locks unchanged |
| Engine.EnterMovesThroughUnlockedDoor | Assets/Scripts/Game/Actions/EnterAction.cs:22-27 | dispatching Enter on an unlocked door puts the player in the door's room, with empty memory |
| Engine.UnlockThenEnter | Assets/Scripts/Game/Actions/UnlockAction.cs:21-58 | on a locked door, unlock then enter reaches the target room iff the first required item is held; otherwise the two refusal lines are all that happens |
| Engine.TakeTwice | Assets/Scripts/Game/Actions/TakeAction.cs:20-26 | a second take of the same entity stores nothing and shows the negative message |
| Engine.LookTwice | Assets/Scripts/Game/PlayerContext.cs:55-64 | looking at an entity again remembers and sets up nothing new |
| Engine.NewLockIsAuthored | Assets/Scripts/Game/Components/Door.cs:32-40 | a lock state that Look brings into existence belongs to a door and holds that door's authored default |
| Engine.FirstKeyHeld | Assets/Scripts/Game/Actions/UnlockAction.cs:35-46 | the check Unlock makes is "every item in the first at most one of the required items is held": true with no required items, otherwise exactly when the first one's name is in the inventory |
| Engine.UnlockIgnoresLaterItems | Assets/Scripts/Game/Actions/UnlockAction.cs:35-46 | appending more required items to a door that already has one never changes Unlock's outcome |
| Engine.FirstKeyCheckIsWeaker | Assets/Scripts/Game/Actions/UnlockAction.cs:35-46 | holding all required items passes the check that is actually made |
| Engine.FirstKeyAloneUnlocks | Assets/Scripts/Game/Actions/UnlockAction.cs:9-50 | a locked door needing two differently named items, with only the first held, fails the documented all-items condition yet passes the check made, and Unlock opens it with the success message |
| Engine.LookDispatchRemembers | Assets/Scripts/Game/Actions/LookAction.cs:28-31 | a Look dispatch adds the lower-cased names of the entity's items to memory, each new key mapping to one of those items |
| Engine.RoomLookRemembersItsItems | Assets/Scripts/Game/PlayerContext.cs:66-72 | looking around a room just entered leaves exactly that room's children and doors in memory, nothing from the previous room |
| Player.FirstSpace | Assets/Scripts/Game/InputSystem/InputProcessor.cs:21 | the index of a space with no space before it; absent exactly when the input has no space |
| Player.SplitCommand | Assets/Scripts/Game/InputSystem/InputProcessor.cs:21-28 | the verb text has no space; verb, one space and noun rebuild the input; without a space the noun is empty |
| Player.SplitJoin | Assets/Scripts/Game/InputSystem/InputProcessor.cs:21-28 | splitting a space-free verb joined by one space to any noun gives back both, inner spaces of the noun included |
| Player.InputReceived | Assets/Scripts/Game/InputSystem/InputProcessor.cs:19-30 | the noun is forwarded verbatim; a parsed verb is forwarded with no notice; an unparsed one raises exactly one "not valid" notice and forwards the default verb |
| Player.Resolve | Assets/Scripts/Game/PlayerContext.cs:39-42 | memory under the lower-cased noun first, then the inventory under the same key; nothing exactly when both miss |
| Player.TakenItemNeedsLowerCaseName | Assets/Scripts/Game/PlayerContext.cs:41-42 | with an empty room memory and an empty inventory, a taken item resolves exactly when the lower-cased noun equals its exact name |
| Player.OnInputReceived | Assets/Scripts/Game/PlayerContext.cs:37-53 | an unresolved noun gives one notification and no other change; a resolved one dispatches the verb once on that entity; a blank noun dispatches on the current room; the set-up invariant and evolution rules hold |
| Player.Submit | Assets/Scripts/Game/InputSystem/InputProcessor.cs:19-30 | a verb that parses forwards the split command exactly once to `OnInputReceived`, with nothing shown before; a verb that does not parse shows the "not valid" notice and then still forwards the command once with the default verb; either way the set-up invariant and the session evolution rules hold and the log is only appended to |
| Player.InvalidVerbIsForwarded | Assets/Scripts/Game/InputSystem/InputProcessor.cs:23-29 | an invalid verb is notified once and the command still goes ahead with the default verb |
| Player.RunInputs | Assets/Scripts/Game/PlayerContext.cs:37-53 | any sequence of submissions keeps the set-up invariant, the evolution rules and a current room |
| Player.SessionSafety | Assets/Scripts/Game/Components/Door.cs:28-48 | over any sequence of inputs unlocked doors stay unlocked, inventory entries stay, and everything reachable is set up |
| Player.GameStart | Assets/Scripts/Game/GameManager.cs:28-33 | the start sequence leaves every reachable entity set up, and through an unlocked door with an Enter binding the player is in the door's room |
| Scenarios.EnterTutorialDoor | Assets/Scripts/Game/GameManager.cs:30-31 | setting up and entering the tutorial door shows its message, the "--- Cell ---" banner and the cell's narration, with the cell current and memory empty |
| Scenarios.CellClause | Assets/Scripts/Game/Actions/LookAction.cs:40-54 | the cell's list clause is ", Key rusty, Note folded and Gate iron" with the green tags |
| Scenarios.CellLook | Assets/Scripts/Game/GameManager.cs:32 | the look around the cell writes the success line and remembers the lower-cased names of key, note and gate; the gate is not unlocked; when `lower` keeps the three names apart, memory maps each name to its own entity and the gate holds its authored locked state |
| Scenarios.SubmitNamed | Assets/Scripts/Game/PlayerContext.cs:37-45 | typing a space-free verb that parses, one space and a non-blank noun remembered in the room runs the first binding of that verb on the remembered entity, and nothing else |
| Scenarios.TakeKey | Assets/Scripts/Game/Actions/TakeAction.cs:20-26 | "take key" in the cell stores the key under its exact name "Key", shows the take line once and changes nothing else |
| Scenarios.UnlockGate | Assets/Scripts/Game/Actions/UnlockAction.cs:21-58 | "unlock gate" while holding the key opens the locked gate, shows "The gate opens." once and changes nothing else |
| Scenarios.EnterGate | Assets/Scripts/Game/Actions/EnterAction.cs:20-32 | "enter gate" through the open gate moves the player into the hall with an empty room memory, showing the exit message, the "--- Hall ---" banner and the hall's narration |
| Scenarios.PlayThrough | Assets/Scripts/Game/InputSystem/InputProcessor.cs:19-30 | after the start sequence, the inputs "take key", "unlock gate" and "enter gate" leave the player in the hall holding the key, with the gate and tutorial door unlocked, and the log is the start's four lines followed by exactly the five lines of the three handlers; the library facts used (the verbs parse, the nouns lower-case like the names, the names stay apart) are preconditions |
| Scenarios.StartSequence | Assets/Scripts/Game/GameManager.cs:28-33 | the whole start sequence writes four lines in order and leaves the player in the cell, with the three names remembered, an empty inventory and the gate not unlocked; when `lower` keeps the names apart, memory maps each to its own entity and the gate holds its authored locked state |

## Left out

- The Unity user interface, coroutines, timed notification expiry and focus
  handling. The displays are the event log.
- Zenject wiring, C# event subscription and `Dispose`. Input processing calls
  noun resolution directly.
- ScriptableObject serialisation, inspector attributes and object identity.
  Entities are ids.
- .NET string semantics. `string.Format`, `ToLower` (with its culture rules),
  `IsNullOrWhiteSpace` and `Enum.TryParse` are opaque functions of `Lib`. In
  particular, the case-insensitive and numeric forms of the verb parse are not
  re-derived.
- The collaborators `Setup` stores (player context, inventory, display) are
  single per session. Only the fact that `Setup` ran is recorded.
- Null-reference crashes are preconditions, not behaviour:
  - a null binding action that the lookup reads;
  - a blank noun with no current room;
  - a handler on an entity that was never set up.
- World.WellFormed: asks that, for every verb, the lookup on every entity
  reads no null binding. The source crashes only when the player actually
  addresses that entity with that verb, so an entity that is never
  addressed, or a verb never typed on it, could hold a null binding before
  its first match without a crash. Since any verb can be typed, the
  condition is stated for all verbs and all entities.
- Player.GameStart: requires that the room behind the first door is only
  looked at when the door is unlocked and has an Enter binding. Otherwise the
  source crashes, because that room was never set up.
- Engine.LookAt: states that existing lock states are kept, not that Look
  never touches door state, because the code can initialise a newly seen
  door's lock state.
- Scenarios.CellLook and Scenarios.StartSequence: which entity each name
  maps to, and the gate's lock state, are stated only when `lower` keeps
  "Key", "Note" and "Gate" apart. `ToLower` does, but `lower` is opaque, and
  with colliding names the later entities would not be remembered or set up.
- `string.Format` is total in the model: `Lib.format` always returns a
  string, so authored message templates are assumed well formed. In .NET a
  malformed template throws `FormatException` (LookAction.cs:36 and :47,
  TakeAction.cs:24-25). At LookAction.cs:36, the branch with no children,
  the exception changes no state. At LookAction.cs:47 it comes after
  `AddItems`, so the children would be remembered with no line written. At
  TakeAction.cs:24-25 it comes after `StoreItem`, so the item would be stored
  with no line written. These paths are not modelled.

=== FILE: base.dfy ===
/** Vocabulary shared by every part of the engine: entity ids, the verb set,
    the output log and the library primitives the engine calls but does not
    define. */
module Base {

  /** Identity of an authored entity (item, room or door). */
  type Id = nat

  datatype Option<T> = None | Some(value: T)

  /** The closed verb set (`ActionType`). */
  datatype ActionType = Look | Enter | Unlock | Take | Read | Narrate

  /** One line written to the text display (`SetDisplayText`) or to the
      notification display (`SetNotificationText`). */
  datatype Event = Display(text: string) | Notify(text: string)

  /** The library string and enum semantics the engine relies on, kept
      opaque: `format(template, arg)` is `string.Format` with one argument,
      `lower` is `string.ToLower`, `isBlank` is `string.IsNullOrWhiteSpace`,
      `parse` is `Enum.TryParse(text, ignoreCase: true)` and `defaultVerb`
      is `default(ActionType)`, the value a failed parse leaves behind. */
  datatype Lib = Lib(
    format: (string, string) -> string,
    lower: string -> string,
    isBlank: string -> bool,
    parse: string -> Option<ActionType>,
    defaultVerb: ActionType)
}

=== FILE: engine.dfy ===
/** Verb dispatch: `Item.ExecuteAction`, the `ActionBase<TContext>`
    narrowing, the seven handlers and `PlayerContext.SetRoomContext`, which
    Enter calls and which in turn dispatches Narrate. */
module Engine {
  import opened Base
  import opened World
  import opened Inventory
  import opened Locks
  import opened Listing
  import opened PlayerState

  /** Termination measure of the dispatch cycle: only Enter leads to a
      further dispatch (of Narrate, through `SetRoomContext`). */
  function Rank(t: ActionType): nat {
    if t == Enter then 1 else 0
  }

  /** Whether dispatching `t` on `id` reaches a handler body, i.e. a
      binding matches and the handler can view the entity as its context.
      Only then does the source dereference the set-up collaborators. */
  predicate Runs(w: Graph, id: Id, t: ActionType)
    requires WellFormed(w) && id in w
  {
    match FirstMatch(w[id].actions, t)
    case None => false
    case Some(a) => Accepts(a.action.value, w[id])
  }

  /** What dispatching Narrate on an entity writes: its first Narrate
      binding's message, or nothing. */
  function Narration(actions: seq<ActionData>): seq<Event>
    requires LookupSafe(actions, Narrate)
  {
    match FirstMatch(actions, Narrate)
    case None => []
    case Some(a) => [Display(a.message)]
  }

  /** The condition `UnlockAction` checks: no required items, or the FIRST
      required item's name is in the inventory. Later items are not looked
      at (the loop breaks after one iteration). */
  predicate FirstKeyHeld(w: Graph, inv: Inv, door: Id): (b: bool)
    requires WellFormed(w) && door in w && w[door].kind.DoorKind?
    ensures var items := UnlockItems(w, door);
      b <==> forall c :: c in items[..if |items| == 0 then 0 else 1] ==> ContainsItem(inv, w[c].name)
  {
    var items := UnlockItems(w, door);
    |items| == 0 || ContainsItem(inv, w[items[0]].name)
  }

  // ---------------------------------------------------------------------
  // Handlers that do not recurse

  /** `LookAction` / `DoorLookAction`: with no children, the failure
      template formatted with the name; otherwise the children are
      remembered (`AddItems`) and the success template is formatted with the
      list clause. Exactly one line is written; inventory and room are
      untouched, and no existing lock state changes. */
  function LookAt(lib: Lib, w: Graph, s: Session, id: Id, message: string, negativeMessage: string, style: Style): (r: Session)
    requires WellFormed(w) && id in w
    ensures |r.log| == |s.log| + 1 && r.log[..|s.log|] == s.log
    ensures r.inventory == s.inventory && r.room == s.room
    ensures GetItems(w, id) == [] ==> r == Emit(s, Display(lib.format(negativeMessage, w[id].name)))
    ensures GetItems(w, id) != [] ==> r.(log := s.log) == AddItems(lib, w, s, GetItems(w, id))
    ensures GetItems(w, id) != [] ==>
      r.log[|s.log|] == Display(lib.format(message, ListClause(w, s.inventory, GetItems(w, id), style)))
    ensures forall d :: d in s.locks ==> d in r.locks && r.locks[d] == s.locks[d]
  {
    var items := GetItems(w, id);
    if |items| != 0 then
      var s1 := AddItems(lib, w, s, items);
      Emit(s1, Display(lib.format(message, ListClause(w, s1.inventory, items, style))))
    else
      Emit(s, Display(lib.format(negativeMessage, w[id].name)))
  }

  /** `UnlockAction`: one line on every path; the door becomes unlocked
      exactly when it was locked and its first required item (if any) is
      held; nothing but that door's lock state and the log changes. */
  function UnlockAt(w: Graph, s: Session, door: Id, message: string, negativeMessage: string): (r: Session)
    requires WellFormed(w) && door in w && w[door].kind.DoorKind?
    ensures |r.log| == |s.log| + 1 && r.log[..|s.log|] == s.log
    ensures r.inventory == s.inventory && r.memory == s.memory && r.room == s.room && r.setUp == s.setUp
    ensures IsUnlocked(s.locks, door) ==> r == Emit(s, Display(w[door].name + " is already unlocked!"))
    ensures !IsUnlocked(s.locks, door) ==> (IsUnlocked(r.locks, door) <==> FirstKeyHeld(w, s.inventory, door))
    ensures !IsUnlocked(s.locks, door) && FirstKeyHeld(w, s.inventory, door) ==> r.log[|s.log|] == Display(message)
    ensures !IsUnlocked(s.locks, door) && !FirstKeyHeld(w, s.inventory, door) ==> r == Emit(s, Display(negativeMessage))
    ensures forall d :: d != door ==> (d in r.locks <==> d in s.locks)
    ensures forall d :: d != door && d in s.locks ==> r.locks[d] == s.locks[d]
    ensures IsUnlocked(s.locks, door) ==> IsUnlocked(r.locks, door)
  {
    if IsUnlocked(s.locks, door) then
      Emit(s, Display(w[door].name + " is already unlocked!"))
    else if |UnlockItems(w, door)| == 0 then
      Emit(s.(locks := UnlockDoor(s.locks, door)), Display(message))
    else if !ContainsItem(s.inventory, w[UnlockItems(w, door)[0]].name) then
      Emit(s, Display(negativeMessage))
    else
      Emit(s.(locks := UnlockDoor(s.locks, door)), Display(message))
  }

  /** `TakeAction`: stores the entity under its name and reports the
      outcome in one line; afterwards the inventory holds that name. */
  function TakeAt(lib: Lib, w: Graph, s: Session, id: Id, message: string, negativeMessage: string): (r: Session)
    requires id in w
    ensures ContainsItem(r.inventory, w[id].name)
    ensures r.memory == s.memory && r.room == s.room && r.locks == s.locks && r.setUp == s.setUp
    ensures !ContainsItem(s.inventory, w[id].name) ==>
      r.inventory[w[id].name] == id && r.log == s.log + [Display(lib.format(message, w[id].name))]
    ensures ContainsItem(s.inventory, w[id].name) ==>
      r.inventory == s.inventory && r.log == s.log + [Display(lib.format(negativeMessage, w[id].name))]
    ensures forall k :: k in s.inventory ==> k in r.inventory && r.inventory[k] == s.inventory[k]
  {
    var (inv, stored) := StoreItem(s.inventory, w[id].name, id);
    Emit(s.(inventory := inv),
         Display(if stored then lib.format(message, w[id].name) else lib.format(negativeMessage, w[id].name)))
  }

  /** `ReadAction`: the fixed read template around the message. */
  function ReadAt(w: Graph, s: Session, id: Id, message: string): (r: Session)
    requires id in w
    ensures r.(log := s.log) == s
    ensures r.log == s.log + [Display("The " + w[id].name + " reads: <i><color=orange>" + message + "</color></i>")]
  {
    Emit(s, Display("The " + w[id].name + " reads: <i><color=orange>" + message + "</color></i>"))
  }

  /** `NarrateAction`: the message verbatim. */
  function NarrateAt(s: Session, message: string): (r: Session)
    ensures r.(log := s.log) == s
    ensures r.log == s.log + [Display(message)]
  {
    Emit(s, Display(message))
  }

  // ---------------------------------------------------------------------
  // The dispatch cycle

  /** `Item.ExecuteAction(t)`: the first binding whose handler has type `t`
      runs; with none the call is silent. Only Enter moves the player;
      Narrate writes its message and nothing else. */
  function Dispatch(lib: Lib, w: Graph, s: Session, id: Id, t: ActionType): (r: Session)
    requires WellFormed(w) && id in w
    requires Runs(w, id, t) ==> id in s.setUp
    ensures Evolves(s, r)
    ensures Invariant(w, s) ==> Invariant(w, r)
    ensures FirstMatch(w[id].actions, t).None? ==> r == s
    ensures t != Enter ==> r.room == s.room
    ensures t == Narrate ==> r == s.(log := s.log + Narration(w[id].actions))
    ensures FirstMatch(w[id].actions, t).Some? ==>
      var a := FirstMatch(w[id].actions, t).value;
      a.action.Some? && TypeOf(a.action.value) == t
      && r == Execute(lib, w, s, a.action.value, id, a.message, a.negativeMessage)
    decreases Rank(t), 3
  {
    match FirstMatch(w[id].actions, t)
    case None => s
    case Some(a) =>
      assert a.action.Some? && TypeOf(a.action.value) == t;
      Execute(lib, w, s, a.action.value, id, a.message, a.negativeMessage)
  }

  /** `ActionBase.Execute`: a door handler on a non-door does nothing;
      otherwise the handler runs once with the messages unchanged. */
  function Execute(lib: Lib, w: Graph, s: Session, h: Handler, id: Id, message: string, negativeMessage: string): (r: Session)
    requires WellFormed(w) && id in w
    requires Accepts(h, w[id]) ==> id in s.setUp
    ensures !Accepts(h, w[id]) ==> r == s
    ensures Evolves(s, r)
    ensures Invariant(w, s) ==> Invariant(w, r)
    ensures TypeOf(h) != Enter ==> r.room == s.room
    ensures Accepts(h, w[id]) && h == LookAction ==> r == LookAt(lib, w, s, id, message, negativeMessage, Described)
    ensures Accepts(h, w[id]) && h == DoorLookAction ==> r == LookAt(lib, w, s, id, message, negativeMessage, Checklist)
    ensures Accepts(h, w[id]) && h == EnterAction ==> r == EnterAt(lib, w, s, id, message, negativeMessage)
    ensures Accepts(h, w[id]) && h == UnlockAction ==> r == UnlockAt(w, s, id, message, negativeMessage)
    ensures Accepts(h, w[id]) && h == TakeAction ==> r == TakeAt(lib, w, s, id, message, negativeMessage)
    ensures Accepts(h, w[id]) && h == ReadAction ==> r == ReadAt(w, s, id, message)
    ensures h == NarrateAction ==> r == NarrateAt(s, message)
    decreases Rank(TypeOf(h)), 2
  {
    if !Accepts(h, w[id]) then s
    else
      match h
      case LookAction => LookAt(lib, w, s, id, message, negativeMessage, Described)
      case DoorLookAction => LookAt(lib, w, s, id, message, negativeMessage, Checklist)
      case EnterAction => EnterAt(lib, w, s, id, message, negativeMessage)
      case UnlockAction => UnlockAt(w, s, id, message, negativeMessage)
      case TakeAction => TakeAt(lib, w, s, id, message, negativeMessage)
      case ReadAction => ReadAt(w, s, id, message)
      case NarrateAction => NarrateAt(s, message)
  }

  /** `EnterAction`: through an unlocked door, the success message and the
      `--- room ---` banner, then the room transition (whose narration
      follows); through a locked door, one red line and nothing else. The
      lock state and the inventory never change. */
  function EnterAt(lib: Lib, w: Graph, s: Session, door: Id, message: string, negativeMessage: string): (r: Session)
    requires WellFormed(w) && door in w && w[door].kind.DoorKind?
    ensures !IsUnlocked(s.locks, door) ==> r == Emit(s, Display("<color=red>" + negativeMessage + "</color>"))
    ensures IsUnlocked(s.locks, door) ==>
      && r.room == Some(w[door].kind.room)
      && r.memory == map[]
      && r.setUp == s.setUp + {w[door].kind.room}
      && r.log == s.log + [Display(message), Display("--- " + w[w[door].kind.room].name + " ---")]
                  + Narration(w[w[door].kind.room].actions)
    ensures r.locks == s.locks && r.inventory == s.inventory
    ensures Evolves(s, r)
    ensures Invariant(w, s) ==> Invariant(w, r)
    decreases 1, 1
  {
    if IsUnlocked(s.locks, door) then
      var target := w[door].kind.room;
      var s1 := Emit(Emit(s, Display(message)), Display("--- " + w[target].name + " ---"));
      SetRoomContext(lib, w, s1, target)
    else
      Emit(s, Display("<color=red>" + negativeMessage + "</color>"))
  }

  /** `SetRoomContext`: forgets the previous room's items, makes `room`
      current, sets it up and narrates it. */
  function SetRoomContext(lib: Lib, w: Graph, s: Session, room: Id): (r: Session)
    requires WellFormed(w) && room in w && w[room].kind.RoomKind?
    ensures r.room == Some(room) && r.memory == map[]
    ensures r.setUp == s.setUp + {room}
    ensures r.inventory == s.inventory && r.locks == s.locks
    ensures r.log == s.log + Narration(w[room].actions)
    ensures Invariant(w, s) ==> Invariant(w, r)
    decreases 0, 4
  {
    var s1 := Setup(w, s.(memory := map[], room := Some(room)), room);
    Dispatch(lib, w, s1, room, Narrate)
  }

  // ---------------------------------------------------------------------
  // Properties relating several calls

  /** Dispatching Enter on a set-up, unlocked door whose Enter binding runs
      moves the player into the door's room, which is then set up, with an
      empty room memory. */
  lemma EnterMovesThroughUnlockedDoor(lib: Lib, w: Graph, s: Session, door: Id)
    requires WellFormed(w) && door in w && w[door].kind.DoorKind? && door in s.setUp
    requires Runs(w, door, Enter) && IsUnlocked(s.locks, door)
    ensures Dispatch(lib, w, s, door, Enter).room == Some(w[door].kind.room)
    ensures w[door].kind.room in Dispatch(lib, w, s, door, Enter).setUp
    ensures Dispatch(lib, w, s, door, Enter).memory == map[]
  {
    var a := FirstMatch(w[door].actions, Enter).value;
    assert a.action.value == EnterAction;
    assert Dispatch(lib, w, s, door, Enter) == EnterAt(lib, w, s, door, a.message, a.negativeMessage);
  }

  /** A lock state that Look creates belongs to a door and holds that
      door's authored default. */
  lemma NewLockIsAuthored(lib: Lib, w: Graph, s: Session, id: Id, message: string, negativeMessage: string, style: Style, d: Id)
    requires WellFormed(w) && id in w && d !in s.locks
    ensures d in LookAt(lib, w, s, id, message, negativeMessage, style).locks ==>
      d in w && w[d].kind.DoorKind?
      && LookAt(lib, w, s, id, message, negativeMessage, style).locks[d] == w[d].kind.authoredUnlocked
  {
    var items := GetItems(w, id);
    if items != [] {
      assert LookAt(lib, w, s, id, message, negativeMessage, style).locks == AddItems(lib, w, s, items).locks;
    }
  }

  /** Unlock reads only the first required item: appending more required
      items to a door that already has one changes no outcome. */
  lemma UnlockIgnoresLaterItems(w: Graph, s: Session, door: Id, message: string, negativeMessage: string, extra: seq<Id>)
    requires WellFormed(w) && door in w && w[door].kind.DoorKind? && |w[door].items| >= 1
    requires forall c :: c in extra ==> c in w
    ensures WellFormed(w[door := w[door].(items := w[door].items + extra)])
    ensures UnlockAt(w[door := w[door].(items := w[door].items + extra)], s, door, message, negativeMessage)
         == UnlockAt(w, s, door, message, negativeMessage)
  {
    var w' := w[door := w[door].(items := w[door].items + extra)];
    assert w'.Keys == w.Keys;
    forall id | id in w' ensures EntityWellFormed(w', w'[id]) {
      assert EntityWellFormed(w, w[id]);
    }
    assert UnlockItems(w', door)[0] == UnlockItems(w, door)[0];
  }

  /** Unlock followed by Enter on a locked door: with the first required
      item held the player ends up in the door's room; without it both
      handlers refuse and nothing but the two refusal lines is written. */
  lemma UnlockThenEnter(lib: Lib, w: Graph, s: Session, door: Id, m1: string, n1: string, m2: string, n2: string)
    requires WellFormed(w) && door in w && w[door].kind.DoorKind?
    requires !IsUnlocked(s.locks, door)
    ensures FirstKeyHeld(w, s.inventory, door) ==>
      var r := EnterAt(lib, w, UnlockAt(w, s, door, m1, n1), door, m2, n2);
      r.room == Some(w[door].kind.room) && r.memory == map[] && r.log[|s.log|] == Display(m1)
    ensures !FirstKeyHeld(w, s.inventory, door) ==>
      EnterAt(lib, w, UnlockAt(w, s, door, m1, n1), door, m2, n2)
        == s.(log := s.log + [Display(n1), Display("<color=red>" + n2 + "</color>")])
  {
    var u := UnlockAt(w, s, door, m1, n1);
    if FirstKeyHeld(w, s.inventory, door) {
      var r := EnterAt(lib, w, u, door, m2, n2);
      assert r.log[..|u.log|] == u.log;
      assert r.log[|s.log|] == u.log[|s.log|];
    } else {
      assert u == Emit(s, Display(n1));
    }
  }

  /** Taking the same entity twice: the second take stores nothing and
      reports the negative message. */
  lemma TakeTwice(lib: Lib, w: Graph, s: Session, id: Id, message: string, negativeMessage: string)
    requires id in w
    ensures TakeAt(lib, w, TakeAt(lib, w, s, id, message, negativeMessage), id, message, negativeMessage)
         == Emit(TakeAt(lib, w, s, id, message, negativeMessage), Display(lib.format(negativeMessage, w[id].name)))
  {
  }

  /** Looking at the same entity twice remembers and sets up nothing new the
      second time. */
  lemma LookTwice(lib: Lib, w: Graph, s: Session, id: Id, message: string, negativeMessage: string, style: Style)
    requires WellFormed(w) && id in w
    ensures LookAt(lib, w, LookAt(lib, w, s, id, message, negativeMessage, style), id, message, negativeMessage, style).memory
         == LookAt(lib, w, s, id, message, negativeMessage, style).memory
    ensures LookAt(lib, w, LookAt(lib, w, s, id, message, negativeMessage, style), id, message, negativeMessage, style).setUp
         == LookAt(lib, w, s, id, message, negativeMessage, style).setUp
  {
    var r1 := LookAt(lib, w, s, id, message, negativeMessage, style);
    var items := GetItems(w, id);
    if items != [] {
      assert r1.memory == AddItems(lib, w, s, items).memory;
      AddItemsAgain(lib, w, r1, items);
    }
  }


  /** All required items held: what the handler's own documentation says it
      checks. */
  predicate AllKeysHeld(w: Graph, inv: Inv, door: Id)
    requires WellFormed(w) && door in w && w[door].kind.DoorKind?
  {
    forall c :: c in UnlockItems(w, door) ==> ContainsItem(inv, w[c].name)
  }

  /** Holding every required item is enough to pass the check; that the
      check also passes when only the first is held is
      `FirstKeyAloneUnlocks`. */
  lemma FirstKeyCheckIsWeaker(w: Graph, inv: Inv, door: Id)
    requires WellFormed(w) && door in w && w[door].kind.DoorKind?
    ensures AllKeysHeld(w, inv, door) ==> FirstKeyHeld(w, inv, door)
  {
    if AllKeysHeld(w, inv, door) && |UnlockItems(w, door)| > 0 {
      assert UnlockItems(w, door)[0] in UnlockItems(w, door);
    }
  }

  /** The witness that the check made is weaker than the documented one: a
      locked door needing two differently named items opens for a player
      holding only the first. */
  lemma FirstKeyAloneUnlocks(w: Graph, s: Session, door: Id, a: Id, b: Id, message: string, negativeMessage: string)
    requires WellFormed(w) && door in w && w[door].kind.DoorKind?
    requires a in w && b in w && w[door].items == [a, b]
    requires ContainsItem(s.inventory, w[a].name) && !ContainsItem(s.inventory, w[b].name)
    requires !IsUnlocked(s.locks, door)
    ensures FirstKeyHeld(w, s.inventory, door) && !AllKeysHeld(w, s.inventory, door)
    ensures IsUnlocked(UnlockAt(w, s, door, message, negativeMessage).locks, door)
    ensures UnlockAt(w, s, door, message, negativeMessage).log == s.log + [Display(message)]
  {
    assert w[door].items[1] == b;
  }

  /** A Look dispatch that finds a binding remembers the entity's children
      on top of the current memory. */
  lemma LookDispatchRemembers(lib: Lib, w: Graph, s: Session, id: Id)
    requires WellFormed(w) && id in w && id in s.setUp
    requires FirstMatch(w[id].actions, Look).Some?
    ensures Dispatch(lib, w, s, id, Look).memory.Keys == s.memory.Keys + KeysOf(lib, w, GetItems(w, id))
    ensures forall k :: k in Dispatch(lib, w, s, id, Look).memory && k !in s.memory ==>
      Dispatch(lib, w, s, id, Look).memory[k] in GetItems(w, id)
  {
    var a := FirstMatch(w[id].actions, Look).value;
    var h := a.action.value;
    assert h == LookAction || h == DoorLookAction;
    var style := if h == LookAction then Described else Checklist;
    var looked := LookAt(lib, w, s, id, a.message, a.negativeMessage, style);
    assert Dispatch(lib, w, s, id, Look) == Execute(lib, w, s, h, id, a.message, a.negativeMessage);
    assert Execute(lib, w, s, h, id, a.message, a.negativeMessage) == looked;
    var items := GetItems(w, id);
    if items == [] {
      assert looked.memory == s.memory;
      assert KeysOf(lib, w, items) == {};
      assert s.memory.Keys + KeysOf(lib, w, items) == s.memory.Keys;
    } else {
      assert looked.memory == AddItems(lib, w, s, items).memory;
    }
  }

  /** Looking around a room just entered remembers exactly that room's
      children and doors, with nothing left over from the previous room. */
  lemma RoomLookRemembersItsItems(lib: Lib, w: Graph, s: Session, room: Id)
    requires WellFormed(w) && room in w && w[room].kind.RoomKind?
    requires FirstMatch(w[room].actions, Look).Some?
    ensures Dispatch(lib, w, SetRoomContext(lib, w, s, room), room, Look).memory.Keys
         == KeysOf(lib, w, GetItems(w, room))
    ensures forall k :: k in Dispatch(lib, w, SetRoomContext(lib, w, s, room), room, Look).memory ==>
      Dispatch(lib, w, SetRoomContext(lib, w, s, room), room, Look).memory[k] in GetItems(w, room)
  {
    var s1 := SetRoomContext(lib, w, s, room);
    LookDispatchRemembers(lib, w, s1, room);
  }
}

=== FILE: inventory.dfy ===
/** The player's inventory: collected items keyed by their exact name. */
module Inventory {
  import opened Base

  /** Item name, verbatim and case-sensitive, to the stored item. */
  type Inv = map<string, Id>

  /** `ContainsItem(key)`: exact, case-sensitive key lookup. */
  predicate ContainsItem(inv: Inv, key: string): (b: bool)
    ensures b <==> key in inv.Keys
    ensures inv == map[] ==> !b
  {
    key in inv
  }

  /** `StoreItem(item)`: adds the item under its name unless that name is
      taken; the flag reports whether it was added. */
  function StoreItem(inv: Inv, name: string, item: Id): (r: (Inv, bool))
    ensures r.1 <==> !ContainsItem(inv, name)
    ensures ContainsItem(r.0, name)
    ensures r.1 ==> r.0[name] == item && |r.0| == |inv| + 1
    ensures !r.1 ==> r.0 == inv
    ensures forall k :: ContainsItem(inv, k) ==> ContainsItem(r.0, k) && r.0[k] == inv[k]
    ensures forall k :: k != name ==> (ContainsItem(r.0, k) <==> ContainsItem(inv, k))
  {
    if name in inv then (inv, false) else (inv[name := item], true)
  }

  /** `GetItem(key)`: the stored item, or nothing (`null`). */
  function GetItem(inv: Inv, key: string): (r: Option<Id>)
    ensures r.Some? <==> ContainsItem(inv, key)
    ensures r.Some? ==> r.value == inv[key]
  {
    if key in inv then Some(inv[key]) else None
  }

  /** Getting a name right after storing it yields the item that holds the
      name: the new one when the store succeeded, the old one otherwise. */
  lemma StoreThenGet(inv: Inv, name: string, item: Id)
    ensures GetItem(StoreItem(inv, name, item).0, name)
         == Some(if ContainsItem(inv, name) then inv[name] else item)
  {
  }

  /** The operations the inventory offers. */
  datatype Op = Store(name: string, item: Id) | Get(key: string) | Contains(key: string)

  function Apply(inv: Inv, op: Op): Inv {
    match op
    case Store(name, item) => StoreItem(inv, name, item).0
    case Get(_) => inv
    case Contains(_) => inv
  }

  function Run(inv: Inv, ops: seq<Op>): Inv
    decreases |ops|
  {
    if ops == [] then inv else Run(Apply(inv, ops[0]), ops[1..])
  }

  /** No operation removes or overwrites an entry: once a key is present it
      stays present with the same item, whatever operations follow. */
  lemma {:induction false} RunKeepsEntries(inv: Inv, ops: seq<Op>, k: string)
    requires ContainsItem(inv, k)
    ensures ContainsItem(Run(inv, ops), k) && Run(inv, ops)[k] == inv[k]
    decreases |ops|
  {
    if ops != [] {
      RunKeepsEntries(Apply(inv, ops[0]), ops[1..], k);
    }
  }

  /** Storing an item twice succeeds the first time and fails the second. */
  lemma StoreTwice(inv: Inv, name: string, item: Id)
    requires !ContainsItem(inv, name)
    ensures StoreItem(inv, name, item).1
    ensures !StoreItem(StoreItem(inv, name, item).0, name, item).1
    ensures StoreItem(StoreItem(inv, name, item).0, name, item).0 == StoreItem(inv, name, item).0
  {
  }

  /** Stores under one name only. */
  predicate AllStoreUnder(ops: seq<Op>, name: string) {
    forall i :: 0 <= i < |ops| ==> ops[i].Store? && ops[i].name == name
  }

  /** However many times an item name is stored, the inventory grows by
      exactly one entry. */
  lemma {:induction false} RepeatedStoreGrowsByOne(inv: Inv, ops: seq<Op>, name: string)
    requires !ContainsItem(inv, name)
    requires |ops| >= 1 && AllStoreUnder(ops, name)
    ensures |Run(inv, ops)| == |inv| + 1
    ensures ContainsItem(Run(inv, ops), name) && Run(inv, ops)[name] == ops[0].item
  {
    var inv1 := Apply(inv, ops[0]);
    assert |inv1| == |inv| + 1 && inv1[name] == ops[0].item;
    StoredNameIsStable(inv1, ops[1..], name);
  }

  /** Further stores under a present name leave the inventory unchanged. */
  lemma {:induction false} StoredNameIsStable(inv: Inv, ops: seq<Op>, name: string)
    requires ContainsItem(inv, name) && AllStoreUnder(ops, name)
    ensures Run(inv, ops) == inv
    decreases |ops|
  {
    if ops != [] {
      assert Apply(inv, ops[0]) == inv;
      assert AllStoreUnder(ops[1..], name) by {
        forall i | 0 <= i < |ops[1..]| ensures ops[1..][i].Store? && ops[1..][i].name == name {
          assert ops[1..][i] == ops[i + 1];
        }
      }
      StoredNameIsStable(inv, ops[1..], name);
    }
  }
}

=== FILE: listing.dfy ===
/** The sentence Look builds from a list of children (`LookAction.Display`
    with `AddItemToString`, and its `DoorLookAction` override). */
module Listing {
  import opened Base
  import opened World
  import opened Inventory

  /** Which `AddItemToString` is in force: the generic one (name and
      description) or the door one (name coloured by inventory presence). */
  datatype Style = Described | Checklist

  /** `" and "` before the last of two or more children, `", "` otherwise. */
  function Separator(i: nat, n: nat): string {
    if i == n - 1 && n > 1 then " and " else ", "
  }

  /** The colour a door look gives a required item. */
  function KeyColour(inv: Inv, name: string): string {
    if ContainsItem(inv, name) then "green" else "red"
  }

  /** The text one child contributes, after its separator. */
  function Body(w: Graph, inv: Inv, id: Id, style: Style): (r: string)
    requires id in w
    ensures style.Described? ==> r == "<color=green>" + w[id].name + "</color> " + w[id].description
    ensures style.Checklist? && ContainsItem(inv, w[id].name) ==> r == "<color=green>" + w[id].name + "</color>"
    ensures style.Checklist? && !ContainsItem(inv, w[id].name) ==> r == "<color=red>" + w[id].name + "</color>"
  {
    match style
    case Described => "<color=green>" + w[id].name + "</color> " + w[id].description
    case Checklist => "<color=" + KeyColour(inv, w[id].name) + ">" + w[id].name + "</color>"
  }

  /** One segment per child, in child order, each its separator followed by
      the child's text. */
  function Segments(w: Graph, inv: Inv, items: seq<Id>, style: Style): (r: seq<string>)
    requires forall c :: c in items ==> c in w
    ensures |r| == |items|
    ensures forall i :: 0 <= i < |items| ==> r[i] == Separator(i, |items|) + Body(w, inv, items[i], style)
  {
    seq(|items|, i requires 0 <= i < |items| => Separator(i, |items|) + Body(w, inv, items[i], style))
  }

  function Concat(ss: seq<string>): string
    decreases |ss|
  {
    if ss == [] then "" else ss[0] + Concat(ss[1..])
  }

  /** The list clause substituted into Look's success message. */
  function ListClause(w: Graph, inv: Inv, items: seq<Id>, style: Style): string
    requires forall c :: c in items ==> c in w
  {
    Concat(Segments(w, inv, items, style))
  }

  lemma {:induction false} ConcatSnoc(ss: seq<string>, s: string)
    ensures Concat(ss + [s]) == Concat(ss) + s
    decreases |ss|
  {
    if ss == [] {
      assert ss + [s] == [s];
    } else {
      assert (ss + [s])[1..] == ss[1..] + [s];
      ConcatSnoc(ss[1..], s);
    }
  }

  /** The `StringBuilder` loop of `LookAction.Display`: appending each
      child's segment in turn yields the list clause. */
  method BuildListing(w: Graph, inv: Inv, items: seq<Id>, style: Style) returns (sb: string)
    requires forall c :: c in items ==> c in w
    ensures sb == ListClause(w, inv, items, style)
  {
    ghost var segs := Segments(w, inv, items, style);
    sb := "";
    var i := 0;
    while i < |items|
      invariant 0 <= i <= |items|
      invariant sb == Concat(segs[..i])
    {
      var isLast := i == |items| - 1 && |items| > 1;
      var part := (if isLast then " and " else ", ") + Body(w, inv, items[i], style);
      assert segs[..i + 1] == segs[..i] + [part];
      ConcatSnoc(segs[..i], part);
      sb := sb + part;
      i := i + 1;
    }
    assert segs[..i] == segs;
  }

  /** With at least one child the clause opens with `", "`: in particular a
      single child is not introduced by `" and "`. */
  lemma ListingOpensWithComma(w: Graph, inv: Inv, items: seq<Id>, style: Style)
    requires forall c :: c in items ==> c in w
    requires |items| >= 1
    ensures |ListClause(w, inv, items, style)| >= 2
    ensures ListClause(w, inv, items, style)[..2] == ", "
  {
    var segs := Segments(w, inv, items, style);
    assert segs[0] == ", " + Body(w, inv, items[0], style);
    assert ListClause(w, inv, items, style) == segs[0] + Concat(segs[1..]);
  }

  /** The clause for two children reads `", A and B"`. */
  lemma ListingOfTwo(w: Graph, inv: Inv, a: Id, b: Id, style: Style)
    requires a in w && b in w
    ensures ListClause(w, inv, [a, b], style)
         == ", " + Body(w, inv, a, style) + " and " + Body(w, inv, b, style)
  {
    var segs := Segments(w, inv, [a, b], style);
    assert segs[1..][1..] == [];
    assert Concat(segs[1..]) == segs[1];
  }

  /** The clause for three children reads `", A, B and C"`. */
  lemma ListingOfThree(w: Graph, inv: Inv, a: Id, b: Id, c: Id, style: Style)
    requires a in w && b in w && c in w
    ensures ListClause(w, inv, [a, b, c], style)
         == ", " + Body(w, inv, a, style) + ", " + Body(w, inv, b, style) + " and " + Body(w, inv, c, style)
  {
    var segs := Segments(w, inv, [a, b, c], style);
    ConcatOfThree(segs);
  }

  lemma ConcatOfThree(ss: seq<string>)
    requires |ss| == 3
    ensures Concat(ss) == ss[0] + ss[1] + ss[2]
  {
    assert ss[2..][1..] == [];
    assert Concat(ss[2..]) == ss[2];
    assert ss[1..][1..] == ss[2..];
  }

}

=== FILE: locks.dfy ===
/** The runtime lock state of doors (`Door._state`), kept apart from the
    authored door records. A door without an entry has a `null` state. */
module Locks {
  import opened Base

  type LockMap = map<Id, bool>

  /** `IsUnlocked`: the state exists and says unlocked. */
  function IsUnlocked(locks: LockMap, door: Id): (r: bool)
    ensures door !in locks ==> !r
    ensures door in locks ==> r == locks[door]
  {
    door in locks && locks[door]
  }

  /** The lock part of `Door.Setup`: `_state ??= authored default`. */
  function SetupLock(locks: LockMap, door: Id, authored: bool): (r: LockMap)
    ensures door in r
    ensures door !in locks ==> IsUnlocked(r, door) == authored
    ensures door in locks ==> r == locks
    ensures forall d :: d != door ==> (d in r <==> d in locks)
    ensures forall d :: d in locks ==> d in r && r[d] == locks[d]
  {
    if door in locks then locks else locks[door := authored]
  }

  /** `UnlockDoor`: the state becomes unlocked whatever it was. */
  function UnlockDoor(locks: LockMap, door: Id): (r: LockMap)
    ensures IsUnlocked(r, door)
    ensures forall d :: d != door ==> (d in r <==> d in locks)
    ensures forall d :: d != door && d in locks ==> r[d] == locks[d]
  {
    locks[door := true]
  }

  /** Setup never resets a state that exists, so a second Setup, even with
      another default, is a no-op. */
  lemma SetupIdempotent(locks: LockMap, door: Id, a: bool, b: bool)
    ensures SetupLock(SetupLock(locks, door, a), door, b) == SetupLock(locks, door, a)
  {
  }

  /** Unlocking twice is unlocking once. */
  lemma UnlockIdempotent(locks: LockMap, door: Id)
    ensures UnlockDoor(UnlockDoor(locks, door), door) == UnlockDoor(locks, door)
  {
  }

  /** The operations that write a door's lock state. */
  datatype LockOp = SetupOp(door: Id, authored: bool) | UnlockOp(door: Id)

  function ApplyLock(locks: LockMap, op: LockOp): LockMap {
    match op
    case SetupOp(d, a) => SetupLock(locks, d, a)
    case UnlockOp(d) => UnlockDoor(locks, d)
  }

  function RunLocks(locks: LockMap, ops: seq<LockOp>): LockMap
    decreases |ops|
  {
    if ops == [] then locks else RunLocks(ApplyLock(locks, ops[0]), ops[1..])
  }

  /** No sequence of operations turns an unlocked door back to locked. */
  lemma {:induction false} UnlockedStaysUnlocked(locks: LockMap, ops: seq<LockOp>, door: Id)
    requires IsUnlocked(locks, door)
    ensures IsUnlocked(RunLocks(locks, ops), door)
    decreases |ops|
  {
    if ops != [] {
      UnlockedStaysUnlocked(ApplyLock(locks, ops[0]), ops[1..], door);
    }
  }
}

=== FILE: player.dfy ===
/** Command input: `InputProcessor.InputReceived` (first-space split and
    verb parse) feeding `PlayerContext.OnInputReceived` (noun resolution and
    dispatch) directly, in place of the C# event. */
module Player {
  import opened Base
  import opened World
  import opened Inventory
  import opened Locks
  import opened PlayerState
  import opened Engine

  /** The index of the first space, if any. */
  function FirstSpace(s: string): (r: Option<nat>)
    ensures r.Some? ==> r.value < |s| && s[r.value] == ' ' && ' ' !in s[..r.value]
    ensures r.None? <==> ' ' !in s
    decreases |s|
  {
    if |s| == 0 then None
    else if s[0] == ' ' then Some(0)
    else
      match FirstSpace(s[1..])
      case None => None
      case Some(i) =>
        assert s[..i + 1] == [s[0]] + s[1..][..i];
        Some(i + 1)
  }

  /** `Split(new[] { ' ' }, 2)`: the verb text is everything before the
      first space and the noun everything after it, inner spaces included;
      without a space the noun is empty. */
  function SplitCommand(input: string): (r: (string, string))
    ensures ' ' !in r.0
    ensures ' ' in input ==> r.0 + " " + r.1 == input
    ensures ' ' !in input ==> r == (input, "")
  {
    match FirstSpace(input)
    case None => (input, "")
    case Some(i) =>
      assert input == input[..i] + " " + input[i + 1..];
      (input[..i], input[i + 1..])
  }

  /** Splitting inverts joining a space-free verb and any noun with one
      space. */
  lemma SplitJoin(verb: string, noun: string)
    requires ' ' !in verb
    ensures SplitCommand(verb + " " + noun) == (verb, noun)
  {
    var input := verb + " " + noun;
    assert input[|verb|] == ' ';
    var i := FirstSpace(input).value;
    assert i == |verb| by {
      if i < |verb| {
        assert false;
      } else if i > |verb| {
        assert false;
      }
    }
    assert input[..i] == verb;
    assert input[i + 1..] == noun;
  }

  const InvalidCommand := "Action command is not valid! Try again!"

  /** What `InputReceived` hands on: the verb (the default one when parsing
      failed), the noun, and the notifications it raised. */
  datatype Command = Command(verb: ActionType, noun: string, notices: seq<Event>)

  /** `InputReceived`: a failed parse raises exactly one notification, yet a
      command is still produced, with the default verb. The noun is passed
      on verbatim. */
  function InputReceived(lib: Lib, input: string): (r: Command)
    ensures r.noun == SplitCommand(input).1
    ensures ' ' in input ==> SplitCommand(input).0 + " " + r.noun == input
    ensures lib.parse(SplitCommand(input).0).Some? ==>
      r.verb == lib.parse(SplitCommand(input).0).value && r.notices == []
    ensures lib.parse(SplitCommand(input).0).None? ==>
      r.verb == lib.defaultVerb && r.notices == [Notify(InvalidCommand)]
  {
    var (verbText, noun) := SplitCommand(input);
    match lib.parse(verbText)
    case Some(v) => Command(v, noun, [])
    case None => Command(lib.defaultVerb, noun, [Notify(InvalidCommand)])
  }

  /** Noun lookup: room memory under the lower-cased noun first, then the
      inventory under the same lower-cased key. The inventory is keyed by
      exact names, so an item whose name is not already lower case is found
      there only if that exact lower-case name was stored. */
  function Resolve(lib: Lib, s: Session, noun: string): (r: Option<Id>)
    ensures lib.lower(noun) in s.memory ==> r == Some(s.memory[lib.lower(noun)])
    ensures lib.lower(noun) !in s.memory ==> r == GetItem(s.inventory, lib.lower(noun))
    ensures r.None? <==> lib.lower(noun) !in s.memory && !ContainsItem(s.inventory, lib.lower(noun))
  {
    var key := lib.lower(noun);
    if key in s.memory then Some(s.memory[key]) else GetItem(s.inventory, key)
  }

  /** In a room whose memory is empty (just entered), an item taken earlier
      can be named only by a noun whose lower-cased form is the item's exact
      name: the inventory stores `Name` verbatim but is searched with the
      lower-cased noun, so an item named "Key" (with the usual lower-casing)
      can be named only while some room memory holds it. */
  lemma TakenItemNeedsLowerCaseName(lib: Lib, w: Graph, s: Session, id: Id, m: string, n: string, noun: string)
    requires id in w && s.memory == map[] && s.inventory == map[]
    ensures Resolve(lib, TakeAt(lib, w, s, id, m, n), noun).Some? <==> lib.lower(noun) == w[id].name
    ensures Resolve(lib, TakeAt(lib, w, s, id, m, n), noun).Some? ==>
      Resolve(lib, TakeAt(lib, w, s, id, m, n), noun).value == id
  {
    var r := TakeAt(lib, w, s, id, m, n);
    assert r.inventory == map[w[id].name := id];
  }

  function NoItem(noun: string): string {
    "There is no item with " + noun + ". Try again!"
  }

  /** `OnInputReceived`: a non-blank noun is resolved and its entity gets the
      verb once, or one notification says nothing matched and nothing else
      happens; a blank noun sends the verb to the current room. */
  function OnInputReceived(lib: Lib, w: Graph, s: Session, verb: ActionType, noun: string): (r: Session)
    requires WellFormed(w) && Invariant(w, s)
    requires lib.isBlank(noun) ==> s.room.Some?
    ensures Invariant(w, r) && Evolves(s, r)
    ensures !lib.isBlank(noun) && Resolve(lib, s, noun).None? ==> r == Emit(s, Notify(NoItem(noun)))
    ensures !lib.isBlank(noun) && Resolve(lib, s, noun).Some? ==>
      r == Dispatch(lib, w, s, Resolve(lib, s, noun).value, verb)
    ensures lib.isBlank(noun) ==> r == Dispatch(lib, w, s, s.room.value, verb)
  {
    if !lib.isBlank(noun) then
      match Resolve(lib, s, noun)
      case None => Emit(s, Notify(NoItem(noun)))
      case Some(id) => Dispatch(lib, w, s, id, verb)
    else
      Dispatch(lib, w, s, s.room.value, verb)
  }

  /** One player submission: the input processor's notifications, then the
      command, which is always forwarded exactly once: a parsed verb with
      no notice, an unparsed one after the "not valid" notice with the
      default verb. */
  function Submit(lib: Lib, w: Graph, s: Session, input: string): (r: Session)
    requires WellFormed(w) && Invariant(w, s)
    requires lib.isBlank(SplitCommand(input).1) ==> s.room.Some?
    ensures Invariant(w, r) && Evolves(s, r)
    ensures r.log[..|s.log|] == s.log
    ensures lib.parse(SplitCommand(input).0).Some? ==>
      r == OnInputReceived(lib, w, s, lib.parse(SplitCommand(input).0).value, SplitCommand(input).1)
    ensures lib.parse(SplitCommand(input).0).None? ==>
      r == OnInputReceived(lib, w, Emit(s, Notify(InvalidCommand)), lib.defaultVerb, SplitCommand(input).1)
  {
    var c := InputReceived(lib, input);
    var s1 := s.(log := s.log + c.notices);
    assert lib.parse(SplitCommand(input).0).Some? ==> s1 == s;
    OnInputReceived(lib, w, s1, c.verb, c.noun)
  }

  /** An invalid verb is reported once and the command still goes ahead,
      carrying the default verb. */
  lemma InvalidVerbIsForwarded(lib: Lib, w: Graph, s: Session, input: string)
    requires WellFormed(w) && Invariant(w, s)
    requires lib.isBlank(SplitCommand(input).1) ==> s.room.Some?
    requires lib.parse(SplitCommand(input).0).None?
    ensures Submit(lib, w, s, input)
         == OnInputReceived(lib, w, Emit(s, Notify(InvalidCommand)), lib.defaultVerb, SplitCommand(input).1)
  {
  }

  /** A session driven by a sequence of submissions once a room is current
      (so a blank noun always has a target). */
  function RunInputs(lib: Lib, w: Graph, s: Session, inputs: seq<string>): (r: Session)
    requires WellFormed(w) && Invariant(w, s) && s.room.Some?
    ensures Invariant(w, r) && Evolves(s, r) && r.room.Some?
    decreases |inputs|
  {
    if inputs == [] then s
    else RunInputs(lib, w, Submit(lib, w, s, inputs[0]), inputs[1..])
  }

  /** Over any sequence of inputs, doors never relock, inventory entries
      stay, and everything reachable has been set up. */
  lemma SessionSafety(lib: Lib, w: Graph, s: Session, inputs: seq<string>, door: Id, name: string)
    requires WellFormed(w) && Invariant(w, s) && s.room.Some?
    ensures IsUnlocked(s.locks, door) ==> IsUnlocked(RunInputs(lib, w, s, inputs).locks, door)
    ensures ContainsItem(s.inventory, name) ==>
      ContainsItem(RunInputs(lib, w, s, inputs).inventory, name)
      && RunInputs(lib, w, s, inputs).inventory[name] == s.inventory[name]
    ensures Invariant(w, RunInputs(lib, w, s, inputs))
  {
  }

  /** `GameManager.Start`: set up the first door, enter it, and look around
      the room behind it. The look is only safe when the room was entered
      (an un-set-up room has no display to write to). */
  function GameStart(lib: Lib, w: Graph, door: Id): (r: Session)
    requires WellFormed(w) && door in w && w[door].kind.DoorKind?
    requires Runs(w, w[door].kind.room, Look) ==> w[door].kind.authoredUnlocked && Runs(w, door, Enter)
    ensures Invariant(w, r)
    ensures w[door].kind.authoredUnlocked && Runs(w, door, Enter) ==> r.room == Some(w[door].kind.room)
  {
    var room := w[door].kind.room;
    var s1 := Setup(w, Fresh, door);
    assert Invariant(w, s1);
    var s2 := Dispatch(lib, w, s1, door, Enter);
    if w[door].kind.authoredUnlocked && Runs(w, door, Enter) then
      EnterMovesThroughUnlockedDoor(lib, w, s1, door);
      Dispatch(lib, w, s2, room, Look)
    else
      Dispatch(lib, w, s2, room, Look)
  }
}

=== FILE: scenarios.dfy ===
/** A small authored world and the start sequence of `GameManager.Start`
    (set up the tutorial door, enter it, look around the room behind it),
    followed by a play-through of typed commands. The library primitives
    stay opaque: each lemma states only the few facts about them it uses. */
module Scenarios {
  import opened Base
  import opened World
  import opened Inventory
  import opened Locks
  import opened Listing
  import opened PlayerState
  import opened Engine
  import opened Player

  const TutorialDoor: Id := 0
  const Cell: Id := 1
  const KeyItem: Id := 2
  const NoteItem: Id := 3
  const Gate: Id := 4
  const Hall: Id := 5

  function Bind(h: Handler, message: string, negativeMessage: string): ActionData {
    ActionData(Some(h), message, negativeMessage)
  }

  const TutorialDoorEntity := Entity("Tutorial Door", "plain", [],
    [Bind(EnterAction, "You step through.", "The door will not budge.")],
    DoorKind(Cell, true))
  const CellEntity := Entity("Cell", "damp", [KeyItem, NoteItem],
    [Bind(NarrateAction, "You wake up in a cell.", ""),
     Bind(LookAction, "You see{0}.", "There is nothing in the {0}.")],
    RoomKind([Gate]))
  const KeyEntity := Entity("Key", "rusty", [],
    [Bind(TakeAction, "You take the {0}.", "You already have the {0}.")],
    ItemKind)
  const NoteEntity := Entity("Note", "folded", [],
    [Bind(ReadAction, "Find the key.", "")],
    ItemKind)
  const GateEntity := Entity("Gate", "iron", [KeyItem],
    [Bind(UnlockAction, "The gate opens.", "You need a key."),
     Bind(EnterAction, "You walk out.", "The gate is shut."),
     Bind(DoorLookAction, "The gate needs{0}.", "The gate needs nothing.")],
    DoorKind(Hall, false))
  const HallEntity := Entity("Hall", "long", [],
    [Bind(NarrateAction, "A long hall.", "")],
    RoomKind([]))

  /** Tutorial door (unlocked) into a cell holding a key and a note, with a
      locked gate (needing the key) out to a hall. */
  function Tutorial(): (w: Graph)
    ensures w.Keys == {TutorialDoor, Cell, KeyItem, NoteItem, Gate, Hall}
    ensures w[TutorialDoor] == TutorialDoorEntity && w[Cell] == CellEntity && w[KeyItem] == KeyEntity
    ensures w[NoteItem] == NoteEntity && w[Gate] == GateEntity && w[Hall] == HallEntity
  {
    map[TutorialDoor := TutorialDoorEntity, Cell := CellEntity, KeyItem := KeyEntity,
        NoteItem := NoteEntity, Gate := GateEntity, Hall := HallEntity]
  }

  lemma TutorialWellFormed(w: Graph)
    requires w == Tutorial()
    ensures WellFormed(w)
  {
    forall id | id in w ensures EntityWellFormed(w, w[id]) {
      if id == Cell {
        assert forall c :: c in w[id].items ==> c == KeyItem || c == NoteItem;
      }
    }
  }

  /** Dispatching `t` on `id` runs the handler of the binding given. */
  lemma RunsBinding(lib: Lib, w: Graph, s: Session, id: Id, t: ActionType, a: ActionData)
    requires WellFormed(w) && id in w && id in s.setUp
    requires FirstMatch(w[id].actions, t) == Some(a)
    ensures Dispatch(lib, w, s, id, t) == Execute(lib, w, s, a.action.value, id, a.message, a.negativeMessage)
  {
  }

  /** The first two calls of `GameManager.Start` on the tutorial world:
      entering the unlocked tutorial door shows its message, the banner and
      the cell's narration, and makes the cell current with empty memory. */
  lemma EnterTutorialDoor(lib: Lib, w: Graph, s1: Session, r: Session)
    requires w == Tutorial() && WellFormed(w)
    requires s1 == Setup(w, Fresh, TutorialDoor)
    requires r == Dispatch(lib, w, s1, TutorialDoor, Enter)
    ensures r.room == Some(Cell) && r.memory == map[]
    ensures r.setUp == {TutorialDoor, Cell}
    ensures r.log == [Display("You step through."), Display("--- " + "Cell" + " ---"), Display("You wake up in a cell.")]
    ensures r.inventory == map[] && r.locks == map[TutorialDoor := true]
  {
    assert s1.locks == map[TutorialDoor := true] && s1.setUp == {TutorialDoor};
    var enter := Bind(EnterAction, "You step through.", "The door will not budge.");
    assert FirstMatch(w[TutorialDoor].actions, Enter) == Some(enter);
    RunsBinding(lib, w, s1, TutorialDoor, Enter, enter);
    EnterCell(lib, w, s1, r);
  }

  /** The Enter handler of the tutorial door on a session where it is
      unlocked and nothing else has happened. */
  lemma EnterCell(lib: Lib, w: Graph, s1: Session, r: Session)
    requires w == Tutorial() && WellFormed(w)
    requires s1.locks == map[TutorialDoor := true] && s1.setUp == {TutorialDoor} && s1.log == [] && s1.inventory == map[]
    requires r == EnterAt(lib, w, s1, TutorialDoor, "You step through.", "The door will not budge.")
    ensures r.room == Some(Cell) && r.memory == map[]
    ensures r.setUp == {TutorialDoor, Cell}
    ensures r.log == [Display("You step through."), Display("--- " + "Cell" + " ---"), Display("You wake up in a cell.")]
    ensures r.inventory == map[] && r.locks == map[TutorialDoor := true]
  {
    assert IsUnlocked(s1.locks, TutorialDoor);
    CellNarration(w);
  }

  /** Entering the cell narrates its first binding. */
  lemma CellNarration(w: Graph)
    requires w == Tutorial() && WellFormed(w)
    ensures Narration(w[Cell].actions) == [Display("You wake up in a cell.")]
  {
    assert FirstMatch(w[Cell].actions, Narrate) == Some(w[Cell].actions[0]);
  }

  /** The list clause of the cell, segment by segment. */
  const CellSentence := ", " + "<color=green>Key</color> rusty" + ", " + "<color=green>Note</color> folded"
    + " and " + "<color=green>Gate</color> iron"

  /** The cell's look sentence lists key and note with descriptions, then
      the gate after " and ". */
  lemma CellClause(w: Graph, inv: Inv)
    requires w == Tutorial()
    ensures GetItems(w, Cell) == [KeyItem, NoteItem, Gate]
    ensures ListClause(w, inv, [KeyItem, NoteItem, Gate], Described) == CellSentence
  {
    ListingOfThree(w, inv, KeyItem, NoteItem, Gate, Described);
    CellBodies(w, inv);
  }

  /** The described text of each of the cell's three entities. */
  lemma CellBodies(w: Graph, inv: Inv)
    requires KeyItem in w && w[KeyItem] == KeyEntity && NoteItem in w && w[NoteItem] == NoteEntity
    requires Gate in w && w[Gate] == GateEntity
    ensures Body(w, inv, KeyItem, Described) == "<color=green>Key</color> rusty"
    ensures Body(w, inv, NoteItem, Described) == "<color=green>Note</color> folded"
    ensures Body(w, inv, Gate, Described) == "<color=green>Gate</color> iron"
  {
  }

  /** The tutorial world meets the start sequence's demand: the cell is
      looked at only because the tutorial door is unlocked and enterable. */
  lemma TutorialCanStart(w: Graph)
    requires w == Tutorial()
    ensures WellFormed(w) && w[TutorialDoor].kind.DoorKind? && w[TutorialDoor].kind.room == Cell
    ensures w[TutorialDoor].kind.authoredUnlocked && Runs(w, TutorialDoor, Enter)
  {
    TutorialWellFormed(w);
    assert FirstMatch(w[TutorialDoor].actions, Enter) == Some(w[TutorialDoor].actions[0]);
  }

  /** The three names the cell lists stay apart under `lib.lower`, as they
      do under `ToLower`; the opaque primitive alone does not promise it. */
  predicate DistinctNames(lib: Lib) {
    && lib.lower("Key") != lib.lower("Note")
    && lib.lower("Key") != lib.lower("Gate")
    && lib.lower("Note") != lib.lower("Gate")
  }

  /** The room memory the look around the cell leaves when the names stay
      apart. */
  function CellMemory(lib: Lib): map<string, Id> {
    map[lib.lower("Key") := KeyItem, lib.lower("Note") := NoteItem, lib.lower("Gate") := Gate]
  }

  /** After `GameManager.Start` the player is in the cell; the entry text,
      the banner, the cell's narration and the look sentence have been
      shown; the cell's key, note and gate are remembered, each under its
      own name when `lib.lower` keeps the three apart; and the gate has its
      authored locked state. */
  lemma StartSequence(lib: Lib, w: Graph)
    requires w == Tutorial() && WellFormed(w)
    requires w[TutorialDoor].kind.authoredUnlocked && Runs(w, TutorialDoor, Enter)
    ensures var r := GameStart(lib, w, TutorialDoor);
      && r.room == Some(Cell)
      && r.log == StartLog(lib)
      && r.memory.Keys == {lib.lower("Key"), lib.lower("Note"), lib.lower("Gate")}
      && r.inventory == map[]
      && IsUnlocked(r.locks, TutorialDoor) && !IsUnlocked(r.locks, Gate)
      && (DistinctNames(lib) ==> r.memory == CellMemory(lib) && Gate in r.locks && !r.locks[Gate])
  {
    StartSequenceShown(lib, w);
    if DistinctNames(lib) {
      StartSequenceApart(lib, w);
    }
  }

  /** The four lines the start sequence shows. */
  function StartLog(lib: Lib): seq<Event> {
    [Display("You step through."),
     Display("--- " + "Cell" + " ---"),
     Display("You wake up in a cell."),
     Display(lib.format("You see{0}.", CellSentence))]
  }

  /** What the start sequence shows and leaves, whatever `lib.lower` does. */
  lemma StartSequenceShown(lib: Lib, w: Graph)
    requires w == Tutorial() && WellFormed(w)
    requires w[TutorialDoor].kind.authoredUnlocked && Runs(w, TutorialDoor, Enter)
    ensures var r := GameStart(lib, w, TutorialDoor);
      && r.room == Some(Cell)
      && r.log == StartLog(lib)
      && r.memory.Keys == {lib.lower("Key"), lib.lower("Note"), lib.lower("Gate")}
      && r.inventory == map[]
      && IsUnlocked(r.locks, TutorialDoor) && !IsUnlocked(r.locks, Gate)
  {
    var s2 := StartEntersCell(lib, w);
    CellLook(lib, w, s2);
  }

  /** With the cell's three names apart under `lib.lower`, the start
      sequence remembers each of key, note and gate under its own name, and
      the gate has its authored locked state. */
  lemma StartSequenceApart(lib: Lib, w: Graph)
    requires w == Tutorial() && WellFormed(w) && DistinctNames(lib)
    requires w[TutorialDoor].kind.authoredUnlocked && Runs(w, TutorialDoor, Enter)
    ensures var r := GameStart(lib, w, TutorialDoor);
      r.memory == CellMemory(lib) && Gate in r.locks && !r.locks[Gate]
  {
    var s2 := StartEntersCell(lib, w);
    CellLook(lib, w, s2);
  }

  /** The entry half of the start sequence: the session it leaves in the
      cell, from which the start sequence looks around. */
  lemma StartEntersCell(lib: Lib, w: Graph) returns (s2: Session)
    requires w == Tutorial() && WellFormed(w)
    requires w[TutorialDoor].kind.authoredUnlocked && Runs(w, TutorialDoor, Enter)
    ensures s2.room == Some(Cell) && s2.memory == map[] && s2.setUp == {TutorialDoor, Cell}
    ensures s2.inventory == map[] && s2.locks == map[TutorialDoor := true]
    ensures s2.log + [Display(lib.format("You see{0}.", CellSentence))] == StartLog(lib)
    ensures GameStart(lib, w, TutorialDoor) == Dispatch(lib, w, s2, Cell, Look)
  {
    var s1 := Setup(w, Fresh, TutorialDoor);
    s2 := Dispatch(lib, w, s1, TutorialDoor, Enter);
    EnterTutorialDoor(lib, w, s1, s2);
  }

  // ---------------------------------------------------------------------
  // Play-through: "take key", "unlock gate", "enter gate" after the start

  /** The few library facts the play-through relies on: the three verbs
      parse, the nouns are not blank and lower-case to the same keys as the
      entities' names, and those names stay apart. */
  predicate PlayLib(lib: Lib) {
    && DistinctNames(lib)
    && lib.parse("take") == Some(Take) && lib.parse("unlock") == Some(Unlock) && lib.parse("enter") == Some(Enter)
    && !lib.isBlank("key") && !lib.isBlank("gate")
    && lib.lower("key") == lib.lower("Key") && lib.lower("gate") == lib.lower("Gate")
  }

  /** How the play-through's words resolve against the cell's memory. */
  lemma PlayWords(lib: Lib)
    requires PlayLib(lib)
    ensures ' ' !in "take" && ' ' !in "unlock" && ' ' !in "enter"
    ensures lib.lower("key") in CellMemory(lib) && CellMemory(lib)[lib.lower("key")] == KeyItem
    ensures lib.lower("gate") in CellMemory(lib) && CellMemory(lib)[lib.lower("gate")] == Gate
  {
  }

  /** Three submissions in a row are the three single submissions. */
  lemma RunThree(lib: Lib, w: Graph, s: Session, a: string, b: string, c: string)
    requires WellFormed(w) && Invariant(w, s) && s.room.Some?
    ensures var s1 := Submit(lib, w, s, a);
      var s2 := Submit(lib, w, s1, b);
      RunInputs(lib, w, s, [a, b, c]) == Submit(lib, w, s2, c)
  {
    var s1 := Submit(lib, w, s, a);
    var s2 := Submit(lib, w, s1, b);
    assert [a, b, c][1..] == [b, c] && [b, c][1..] == [c] && [c][1..] == [];
    assert RunInputs(lib, w, s, [a, b, c]) == RunInputs(lib, w, s1, [b, c]);
    assert RunInputs(lib, w, s1, [b, c]) == RunInputs(lib, w, s2, [c]);
    assert RunInputs(lib, w, s2, [c]) == RunInputs(lib, w, Submit(lib, w, s2, c), []);
  }

  /** Submitting `verb noun`, with a verb that parses to `t` and a non-blank
      noun naming a remembered entity whose first `t` binding is `a`, runs
      that binding's handler on the entity. */
  lemma SubmitNamed(lib: Lib, w: Graph, s: Session, verb: string, noun: string, t: ActionType, id: Id, a: ActionData)
    requires WellFormed(w) && Invariant(w, s)
    requires ' ' !in verb && lib.parse(verb) == Some(t) && !lib.isBlank(noun)
    requires lib.lower(noun) in s.memory && s.memory[lib.lower(noun)] == id
    requires id in w && FirstMatch(w[id].actions, t) == Some(a)
    ensures SplitCommand(Typed(verb, noun)) == (verb, noun)
    ensures a.action.Some? && id in s.setUp
    ensures Submit(lib, w, s, Typed(verb, noun)) == Execute(lib, w, s, a.action.value, id, a.message, a.negativeMessage)
  {
    SplitJoin(verb, noun);
    assert Typed(verb, noun) == verb + " " + noun;
    assert Resolve(lib, s, noun) == Some(id);
  }

  /** "take key" in the cell stores the key under its exact name. */
  lemma TakeKey(lib: Lib, w: Graph, s: Session)
    requires s.room.Some?
    requires WellFormed(w) && KeyItem in w && w[KeyItem] == KeyEntity && Gate in w && w[Gate] == GateEntity
    requires PlayLib(lib) && Invariant(w, s)
    requires s.memory == CellMemory(lib) && s.inventory == map[]
    ensures var r := Submit(lib, w, s, Typed("take", "key"));
      && r.room == s.room && r.memory == s.memory && r.locks == s.locks && r.setUp == s.setUp
      && r.inventory == map["Key" := KeyItem]
      && r.log == s.log + TakeLine(lib)
  {
    SubmitTakeKey(lib, w, s);
    var r := TakeAt(lib, w, s, KeyItem, "You take the {0}.", "You already have the {0}.");
    assert r.inventory == map["Key" := KeyItem];
  }

  lemma SubmitTakeKey(lib: Lib, w: Graph, s: Session)
    requires s.room.Some?
    requires WellFormed(w) && KeyItem in w && w[KeyItem] == KeyEntity && Gate in w && w[Gate] == GateEntity
    requires PlayLib(lib) && Invariant(w, s) && s.memory == CellMemory(lib)
    ensures Submit(lib, w, s, Typed("take", "key")) == TakeAt(lib, w, s, KeyItem, "You take the {0}.", "You already have the {0}.")
  {
    var a := Bind(TakeAction, "You take the {0}.", "You already have the {0}.");
    KeyBinding(w);
    PlayWords(lib);
    SubmitNamed(lib, w, s, "take", "key", Take, KeyItem, a);
    TakeRuns(lib, w, s, KeyItem, a.message, a.negativeMessage);
  }

  /** "unlock gate" with the key held opens the locked gate. */
  lemma UnlockGate(lib: Lib, w: Graph, s: Session)
    requires s.room.Some?
    requires WellFormed(w) && KeyItem in w && w[KeyItem] == KeyEntity && Gate in w && w[Gate] == GateEntity
    requires PlayLib(lib) && Invariant(w, s)
    requires s.memory == CellMemory(lib) && s.inventory == map["Key" := KeyItem]
    requires Gate in s.locks && !s.locks[Gate]
    ensures var r := Submit(lib, w, s, Typed("unlock", "gate"));
      && r.room == s.room && r.memory == s.memory && r.inventory == s.inventory && r.setUp == s.setUp
      && IsUnlocked(r.locks, Gate) && r.locks == s.locks[Gate := true]
      && r.log == s.log + [Display("The gate opens.")]
  {
    SubmitUnlockGate(lib, w, s);
    assert UnlockItems(w, Gate)[0] == KeyItem;
    assert FirstKeyHeld(w, s.inventory, Gate);
    var r := UnlockAt(w, s, Gate, "The gate opens.", "You need a key.");
    assert r.log[..|s.log|] == s.log;
  }

  lemma SubmitUnlockGate(lib: Lib, w: Graph, s: Session)
    requires s.room.Some?
    requires WellFormed(w) && KeyItem in w && w[KeyItem] == KeyEntity && Gate in w && w[Gate] == GateEntity
    requires PlayLib(lib) && Invariant(w, s) && s.memory == CellMemory(lib)
    ensures Submit(lib, w, s, Typed("unlock", "gate")) == UnlockAt(w, s, Gate, "The gate opens.", "You need a key.")
  {
    TutorialBindings(w);
    PlayWords(lib);
    SubmitNamed(lib, w, s, "unlock", "gate", Unlock, Gate, GateEntity.actions[0]);
  }

  /** "enter gate" through the unlocked gate moves into the hall. */
  lemma EnterGate(lib: Lib, w: Graph, s: Session)
    requires s.room.Some?
    requires WellFormed(w) && KeyItem in w && w[KeyItem] == KeyEntity && Gate in w && w[Gate] == GateEntity
    requires Hall in w && w[Hall] == HallEntity
    requires PlayLib(lib) && Invariant(w, s)
    requires s.memory == CellMemory(lib) && IsUnlocked(s.locks, Gate)
    ensures var r := Submit(lib, w, s, Typed("enter", "gate"));
      && r.room == Some(Hall) && r.memory == map[] && r.inventory == s.inventory && r.locks == s.locks
      && r.log == s.log + HallLines
  {
    SubmitEnterGate(lib, w, s);
    HallEntry(w);
  }

  lemma SubmitEnterGate(lib: Lib, w: Graph, s: Session)
    requires s.room.Some?
    requires WellFormed(w) && KeyItem in w && w[KeyItem] == KeyEntity && Gate in w && w[Gate] == GateEntity
    requires PlayLib(lib) && Invariant(w, s) && s.memory == CellMemory(lib)
    ensures Submit(lib, w, s, Typed("enter", "gate")) == EnterAt(lib, w, s, Gate, "You walk out.", "The gate is shut.")
  {
    TutorialBindings(w);
    PlayWords(lib);
    SubmitNamed(lib, w, s, "enter", "gate", Enter, Gate, GateEntity.actions[1]);
  }

  /** The take handler accepts every entity. */
  lemma TakeRuns(lib: Lib, w: Graph, s: Session, id: Id, message: string, negativeMessage: string)
    requires WellFormed(w) && id in w && id in s.setUp
    ensures Execute(lib, w, s, TakeAction, id, message, negativeMessage) == TakeAt(lib, w, s, id, message, negativeMessage)
  {
    assert Accepts(TakeAction, w[id]);
  }

  /** The binding "take key" selects. */
  lemma KeyBinding(w: Graph)
    requires KeyItem in w && w[KeyItem] == KeyEntity
    ensures FirstMatch(w[KeyItem].actions, Take) == Some(Bind(TakeAction, "You take the {0}.", "You already have the {0}."))
  {
    assert w[KeyItem].actions[0] == Bind(TakeAction, "You take the {0}.", "You already have the {0}.");
  }

  /** The bindings the play-through's commands select. */
  lemma TutorialBindings(w: Graph)
    requires KeyItem in w && w[KeyItem] == KeyEntity && Gate in w && w[Gate] == GateEntity
    ensures FirstMatch(w[KeyItem].actions, Take) == Some(Bind(TakeAction, "You take the {0}.", "You already have the {0}."))
    ensures FirstMatch(w[Gate].actions, Unlock) == Some(Bind(UnlockAction, "The gate opens.", "You need a key."))
    ensures FirstMatch(w[Gate].actions, Enter) == Some(Bind(EnterAction, "You walk out.", "The gate is shut."))
    ensures KeyEntity.actions[0] == Bind(TakeAction, "You take the {0}.", "You already have the {0}.")
    ensures GateEntity.actions[0] == Bind(UnlockAction, "The gate opens.", "You need a key.")
    ensures GateEntity.actions[1] == Bind(EnterAction, "You walk out.", "The gate is shut.")
  {
  }

  /** Entering the hall narrates its only binding. */
  lemma HallNarration(w: Graph)
    requires WellFormed(w) && Hall in w && w[Hall] == HallEntity
    ensures Narration(w[Hall].actions) == [Display("A long hall.")]
  {
    assert FirstMatch(w[Hall].actions, Narrate) == Some(w[Hall].actions[0]);
  }

  /** The lines of walking through the gate are the hall's three lines. */
  lemma HallEntry(w: Graph)
    requires WellFormed(w) && Gate in w && w[Gate] == GateEntity && Hall in w && w[Hall] == HallEntity
    ensures w[Gate].kind.room == Hall
    ensures [Display("You walk out."), Display("--- " + w[w[Gate].kind.room].name + " ---")]
      + Narration(w[w[Gate].kind.room].actions) == HallLines
  {
    HallNarration(w);
  }

  /** A typed command: the verb, one space, the noun. */
  function Typed(verb: string, noun: string): string {
    verb + " " + noun
  }

  /** The commands typed after the start: "take key", "unlock gate" and
      "enter gate". */
  const PlayInputs: seq<string> := [Typed("take", "key"), Typed("unlock", "gate"), Typed("enter", "gate")]

  /** After the start sequence, typing "take key", "unlock gate" and
      "enter gate" takes the key, opens the gate with it and walks into the
      hall, writing exactly the handlers' lines after the start's four. */
  lemma PlayThrough(lib: Lib, w: Graph)
    requires w == Tutorial() && WellFormed(w) && PlayLib(lib)
    requires w[TutorialDoor].kind.authoredUnlocked && Runs(w, TutorialDoor, Enter)
    ensures var r := RunInputs(lib, w, GameStart(lib, w, TutorialDoor), PlayInputs);
      && r.room == Some(Hall) && r.memory == map[]
      && r.inventory == map["Key" := KeyItem]
      && IsUnlocked(r.locks, Gate) && IsUnlocked(r.locks, TutorialDoor)
      && r.log == StartLog(lib) + PlayLog(lib)
  {
    var s0 := GameStart(lib, w, TutorialDoor);
    StartSequence(lib, w);
    var a, b, c := Typed("take", "key"), Typed("unlock", "gate"), Typed("enter", "gate");
    assert PlayInputs == [a, b, c];
    RunThree(lib, w, s0, a, b, c);
    var s1 := Submit(lib, w, s0, a);
    TakeKey(lib, w, s0);
    var s2 := Submit(lib, w, s1, b);
    UnlockGate(lib, w, s1);
    EnterGate(lib, w, s2);
    AppendThree(s0.log, TakeLine(lib), [Display("The gate opens.")], HallLines);
  }

  lemma AppendThree(x: seq<Event>, a: seq<Event>, b: seq<Event>, c: seq<Event>)
    ensures ((x + a) + b) + c == x + (a + b + c)
  {
  }

  /** The five lines the play-through adds: the take line, the unlock line
      and the three lines of entering the hall. */
  function PlayLog(lib: Lib): seq<Event> {
    TakeLine(lib) + [Display("The gate opens.")] + HallLines
  }

  function TakeLine(lib: Lib): seq<Event> {
    [Display(lib.format("You take the {0}.", "Key"))]
  }

  const HallLines: seq<Event> := [Display("You walk out."), Display("--- " + "Hall" + " ---"), Display("A long hall.")]

  /** The look half of the start sequence, from the state the entry leaves. */
  lemma CellLook(lib: Lib, w: Graph, s2: Session)
    requires w == Tutorial() && WellFormed(w)
    requires s2.room == Some(Cell) && s2.memory == map[] && s2.setUp == {TutorialDoor, Cell}
    requires s2.inventory == map[] && s2.locks == map[TutorialDoor := true]
    ensures var r := Dispatch(lib, w, s2, Cell, Look);
      && r.room == Some(Cell) && r.inventory == map[]
      && r.log == s2.log + [Display(lib.format("You see{0}.", CellSentence))]
      && r.memory.Keys == {lib.lower("Key"), lib.lower("Note"), lib.lower("Gate")}
      && IsUnlocked(r.locks, TutorialDoor) && !IsUnlocked(r.locks, Gate)
    ensures DistinctNames(lib) ==>
      var r := Dispatch(lib, w, s2, Cell, Look);
      r.memory == CellMemory(lib) && Gate in r.locks && !r.locks[Gate]
  {
    var look := Bind(LookAction, "You see{0}.", "There is nothing in the {0}.");
    assert FirstMatch(w[Cell].actions, Look) == Some(look);
    RunsBinding(lib, w, s2, Cell, Look, look);
    assert Accepts(LookAction, w[Cell]);
    assert Dispatch(lib, w, s2, Cell, Look) == LookAt(lib, w, s2, Cell, "You see{0}.", "There is nothing in the {0}.", Described);
    CellLookLog(lib, w, s2);
    CellLookMemory(lib, w, s2);
    CellLookLocks(lib, w, s2);
    if DistinctNames(lib) {
      CellLookDistinctMemory(lib, w, s2);
      CellLookGateLock(lib, w, s2);
    }
  }

  /** The cell's look line, on a session holding nothing. */
  lemma CellLookLog(lib: Lib, w: Graph, s2: Session)
    requires w == Tutorial() && WellFormed(w) && s2.inventory == map[]
    ensures var r := LookAt(lib, w, s2, Cell, "You see{0}.", "There is nothing in the {0}.", Described);
      r.log == s2.log + [Display(lib.format("You see{0}.", CellSentence))] && r.room == s2.room && r.inventory == s2.inventory
  {
    CellClause(w, s2.inventory);
    var r := LookAt(lib, w, s2, Cell, "You see{0}.", "There is nothing in the {0}.", Described);
    assert r.log[..|s2.log|] == s2.log;
  }

  /** Looking around the cell with an empty memory remembers its three
      entities. */
  lemma CellLookMemory(lib: Lib, w: Graph, s2: Session)
    requires w == Tutorial() && WellFormed(w)
    requires s2.memory == map[]
    ensures var r := LookAt(lib, w, s2, Cell, "You see{0}.", "There is nothing in the {0}.", Described);
      r.memory.Keys == {lib.lower("Key"), lib.lower("Note"), lib.lower("Gate")}
  {
    CellClause(w, s2.inventory);
    RememberedKeys(lib, w, s2, Cell, "You see{0}.", "There is nothing in the {0}.");
    KeysOfThree(lib, w, KeyItem, NoteItem, Gate);
  }

  /** A look that succeeds on `id` remembers exactly the keys of its children. */
  lemma RememberedKeys(lib: Lib, w: Graph, s: Session, id: Id, m: string, n: string)
    requires WellFormed(w) && id in w && GetItems(w, id) != []
    ensures LookAt(lib, w, s, id, m, n, Described).memory.Keys == s.memory.Keys + KeysOf(lib, w, GetItems(w, id))
  {
  }

  /** Seeing the gate initialises its lock state to the authored `false`. */
  lemma CellLookLocks(lib: Lib, w: Graph, s2: Session)
    requires w == Tutorial() && WellFormed(w)
    requires s2.locks == map[TutorialDoor := true]
    ensures var r := LookAt(lib, w, s2, Cell, "You see{0}.", "There is nothing in the {0}.", Described);
      IsUnlocked(r.locks, TutorialDoor) && !IsUnlocked(r.locks, Gate)
  {
    assert Gate !in s2.locks && !w[Gate].kind.authoredUnlocked;
    NewLockIsAuthored(lib, w, s2, Cell, "You see{0}.", "There is nothing in the {0}.", Described, Gate);
  }

  /** With the three names apart, the look remembers each entity under its
      own name. */
  lemma CellLookDistinctMemory(lib: Lib, w: Graph, s2: Session)
    requires w == Tutorial() && WellFormed(w) && DistinctNames(lib) && s2.memory == map[]
    ensures LookAt(lib, w, s2, Cell, "You see{0}.", "There is nothing in the {0}.", Described).memory == CellMemory(lib)
  {
    CellClause(w, s2.inventory);
    assert LookAt(lib, w, s2, Cell, "You see{0}.", "There is nothing in the {0}.", Described).memory == AddItems(lib, w, s2, [KeyItem, NoteItem, Gate]).memory;
    assert Key(lib, w, KeyItem) == lib.lower("Key") && Key(lib, w, NoteItem) == lib.lower("Note");
    assert Key(lib, w, Gate) == lib.lower("Gate");
    AddThreeApart(lib, w, s2, KeyItem, NoteItem, Gate);
  }

  /** With the three names apart, the gate is remembered and so, seen for
      the first time, gets a lock state (`CellLookLocks` says it is the
      authored locked one). */
  lemma CellLookGateLock(lib: Lib, w: Graph, s2: Session)
    requires w == Tutorial() && WellFormed(w) && DistinctNames(lib)
    requires s2.memory == map[]
    ensures Gate in LookAt(lib, w, s2, Cell, "You see{0}.", "There is nothing in the {0}.", Described).locks
  {
    CellClause(w, s2.inventory);
    assert LookAt(lib, w, s2, Cell, "You see{0}.", "There is nothing in the {0}.", Described).locks
        == AddItems(lib, w, s2, [KeyItem, NoteItem, Gate]).locks;
    assert Key(lib, w, KeyItem) == lib.lower("Key") && Key(lib, w, NoteItem) == lib.lower("Note");
    assert Key(lib, w, Gate) == lib.lower("Gate");
    AddThreeDoorLock(lib, w, s2, KeyItem, NoteItem, Gate);
  }

  /** Three entities with pairwise different keys, added to an empty
      memory, are each remembered under their own key and nothing else is. */
  lemma AddThreeApart(lib: Lib, w: Graph, s: Session, a: Id, b: Id, c: Id)
    requires a in w && b in w && c in w && s.memory == map[]
    requires Key(lib, w, a) != Key(lib, w, b) && Key(lib, w, a) != Key(lib, w, c) && Key(lib, w, b) != Key(lib, w, c)
    ensures FirstWithKey(lib, w, [a, b, c], 2)
    ensures AddItems(lib, w, s, [a, b, c]).memory == map[Key(lib, w, a) := a, Key(lib, w, b) := b, Key(lib, w, c) := c]
  {
    var r := AddItems(lib, w, s, [a, b, c]);
    AddThreeLookups(lib, w, s, a, b, c);
    MapOfThree(r.memory, Key(lib, w, a), Key(lib, w, b), Key(lib, w, c));
  }

  /** A map with three keys is the display of its three entries. */
  lemma MapOfThree(m: map<string, Id>, k1: string, k2: string, k3: string)
    requires m.Keys == {k1, k2, k3}
    ensures m == map[k1 := m[k1], k2 := m[k2], k3 := m[k3]]
  {
    var d := map[k1 := m[k1], k2 := m[k2], k3 := m[k3]];
    assert d.Keys == m.Keys;
    forall k | k in m ensures d[k] == m[k] {
    }
  }

  /** The last of three entities with pairwise different keys, added to an
      empty memory, has a lock state afterwards when it is a door. */
  lemma AddThreeDoorLock(lib: Lib, w: Graph, s: Session, a: Id, b: Id, c: Id)
    requires a in w && b in w && c in w && s.memory == map[] && w[c].kind.DoorKind?
    requires Key(lib, w, a) != Key(lib, w, b) && Key(lib, w, a) != Key(lib, w, c) && Key(lib, w, b) != Key(lib, w, c)
    ensures c in AddItems(lib, w, s, [a, b, c]).locks
  {
    var items := [a, b, c];
    assert items[0] == a && items[1] == b && items[2] == c;
    assert FirstWithKey(lib, w, items, 2);
    AddItemsGivesDoorsLocks(lib, w, s, items, 2);
  }

  /** Each of three entities with pairwise different keys is the first of
      its key, so `AddItems` remembers it under that key. */
  lemma AddThreeLookups(lib: Lib, w: Graph, s: Session, a: Id, b: Id, c: Id)
    requires a in w && b in w && c in w && s.memory == map[]
    requires Key(lib, w, a) != Key(lib, w, b) && Key(lib, w, a) != Key(lib, w, c) && Key(lib, w, b) != Key(lib, w, c)
    ensures FirstWithKey(lib, w, [a, b, c], 2)
    ensures var r := AddItems(lib, w, s, [a, b, c]);
      && r.memory.Keys == {Key(lib, w, a), Key(lib, w, b), Key(lib, w, c)}
      && r.memory[Key(lib, w, a)] == a && r.memory[Key(lib, w, b)] == b && r.memory[Key(lib, w, c)] == c
  {
    AddThreeFirst(lib, w, a, b, c);
    AddThreeKeys(lib, w, s, a, b, c);
    AddThreeValues(lib, w, s, a, b, c);
  }

  /** The keys three added entities leave in an empty memory. */
  lemma AddThreeKeys(lib: Lib, w: Graph, s: Session, a: Id, b: Id, c: Id)
    requires a in w && b in w && c in w && s.memory == map[]
    ensures AddItems(lib, w, s, [a, b, c]).memory.Keys == {Key(lib, w, a), Key(lib, w, b), Key(lib, w, c)}
  {
    KeysOfThree(lib, w, a, b, c);
  }

  /** Each of three entities with pairwise different keys is remembered
      under its own key. */
  lemma AddThreeValues(lib: Lib, w: Graph, s: Session, a: Id, b: Id, c: Id)
    requires a in w && b in w && c in w && s.memory == map[]
    requires Key(lib, w, a) != Key(lib, w, b) && Key(lib, w, a) != Key(lib, w, c) && Key(lib, w, b) != Key(lib, w, c)
    ensures var r := AddItems(lib, w, s, [a, b, c]);
      && Key(lib, w, a) in r.memory && Key(lib, w, b) in r.memory && Key(lib, w, c) in r.memory
      && r.memory[Key(lib, w, a)] == a && r.memory[Key(lib, w, b)] == b && r.memory[Key(lib, w, c)] == c
  {
    var items := [a, b, c];
    AddThreeFirst(lib, w, a, b, c);
    var r := AddItems(lib, w, s, items);
    assert r.memory[Key(lib, w, items[0])] == items[0];
    assert r.memory[Key(lib, w, items[1])] == items[1];
    assert r.memory[Key(lib, w, items[2])] == items[2];
  }

  /** With pairwise different keys, each of three entities is the first of
      its key. */
  lemma AddThreeFirst(lib: Lib, w: Graph, a: Id, b: Id, c: Id)
    requires a in w && b in w && c in w
    requires Key(lib, w, a) != Key(lib, w, b) && Key(lib, w, a) != Key(lib, w, c) && Key(lib, w, b) != Key(lib, w, c)
    ensures [a, b, c][0] == a && [a, b, c][1] == b && [a, b, c][2] == c
    ensures FirstWithKey(lib, w, [a, b, c], 0) && FirstWithKey(lib, w, [a, b, c], 1) && FirstWithKey(lib, w, [a, b, c], 2)
  {
  }

  lemma KeysOfThree(lib: Lib, w: Graph, a: Id, b: Id, c: Id)
    requires a in w && b in w && c in w
    ensures KeysOf(lib, w, [a, b, c]) == {Key(lib, w, a), Key(lib, w, b), Key(lib, w, c)}
  {
    var items := [a, b, c];
    assert items[0] == a && items[1] == b && items[2] == c;
    forall k | k in {Key(lib, w, a), Key(lib, w, b), Key(lib, w, c)} ensures k in KeysOf(lib, w, items) {
    }
  }
}

=== FILE: state.dfy ===
/** The runtime overlay of one game session (`PlayerContext` fields, the
    inventory, door states, which entities have been set up) together with
    the output log, and the `Setup` / `AddItems` updates on it. */
module PlayerState {
  import opened Base
  import opened World
  import opened Inventory
  import opened Locks

  /** `memory` is `_roomItems`, keyed by lower-cased name; `room` is
      `_roomContext`; `setUp` holds every entity whose `Setup` has run. */
  datatype Session = Session(
    inventory: Inv,
    memory: map<string, Id>,
    room: Option<Id>,
    locks: LockMap,
    setUp: set<Id>,
    log: seq<Event>)

  /** The session before anything has happened. */
  const Fresh := Session(map[], map[], None, map[], {}, [])

  /** Appends one line to the log. */
  function Emit(s: Session, e: Event): Session {
    s.(log := s.log + [e])
  }

  /** `Setup` (`Item.Setup`, overridden by `Door.Setup`): records the
      collaborators, and for a door gives it its authored lock state unless
      it already has one. */
  function Setup(w: Graph, s: Session, id: Id): (r: Session)
    requires id in w
    ensures r.setUp == s.setUp + {id}
    ensures r.inventory == s.inventory && r.memory == s.memory && r.room == s.room && r.log == s.log
    ensures w[id].kind.DoorKind? ==> r.locks == SetupLock(s.locks, id, w[id].kind.authoredUnlocked)
    ensures !w[id].kind.DoorKind? ==> r.locks == s.locks
  {
    var s' := s.(setUp := s.setUp + {id});
    match w[id].kind
    case DoorKind(_, authored) => s'.(locks := SetupLock(s.locks, id, authored))
    case _ => s'
  }

  /** Setting up an entity twice is setting it up once, so a repeated
      `Setup` never resets a door that has been unlocked or locked since. */
  lemma SetupIdempotent(w: Graph, s: Session, id: Id)
    requires id in w
    ensures Setup(w, Setup(w, s, id), id) == Setup(w, s, id)
  {
  }

  /** A door's lock state, once it exists, survives any later `Setup`. */
  lemma SetupKeepsLockState(w: Graph, s: Session, id: Id, door: Id)
    requires id in w && door in s.locks
    ensures door in Setup(w, s, id).locks && Setup(w, s, id).locks[door] == s.locks[door]
  {
  }

  /** The room-memory key of an entity: its lower-cased name. */
  function Key(lib: Lib, w: Graph, id: Id): string
    requires id in w
  {
    lib.lower(w[id].name)
  }

  /** The keys a list of entities is remembered under. */
  function KeysOf(lib: Lib, w: Graph, items: seq<Id>): set<string>
    requires forall c :: c in items ==> c in w
  {
    set c | c in items :: Key(lib, w, c)
  }

  /** No earlier entry of `items` shares the key of `items[i]`. */
  predicate FirstWithKey(lib: Lib, w: Graph, items: seq<Id>, i: nat)
    requires i < |items| && forall c :: c in items ==> c in w
  {
    forall j :: 0 <= j < i ==> Key(lib, w, items[j]) != Key(lib, w, items[i])
  }

  /** The entities `m'` holds under keys `m` lacks. */
  function NewlyRemembered(m: map<string, Id>, m': map<string, Id>): set<Id> {
    set k | k in m' && k !in m :: m'[k]
  }

  /** One step of `AddItems`: `TryAdd(Name.ToLower(), item)`, then `Setup`
      when it was added. */
  function Remember(lib: Lib, w: Graph, s: Session, id: Id): (r: Session)
    requires id in w
    ensures r.inventory == s.inventory && r.room == s.room && r.log == s.log
    ensures r.memory.Keys == s.memory.Keys + {Key(lib, w, id)}
    ensures forall k :: k in s.memory ==> r.memory[k] == s.memory[k]
    ensures Key(lib, w, id) in s.memory ==> r == s
    ensures Key(lib, w, id) !in s.memory ==> r.memory[Key(lib, w, id)] == id && r.setUp == s.setUp + {id}
    ensures forall d :: d in s.locks ==> d in r.locks && r.locks[d] == s.locks[d]
    ensures forall d :: d in r.locks && d !in s.locks ==>
      d == id && d in r.setUp && w[d].kind.DoorKind? && r.locks[d] == w[d].kind.authoredUnlocked
  {
    var key := Key(lib, w, id);
    if key in s.memory then s else Setup(w, s.(memory := s.memory[key := id]), id)
  }

  /** `AddItems`: remembers each entity under its lower-cased name unless the
      key is taken (first one wins, nothing is overwritten) and sets up
      exactly the entities it inserted. Nothing else changes but the lock
      states those new doors receive. */
  function AddItems(lib: Lib, w: Graph, s: Session, items: seq<Id>): (r: Session)
    requires forall c :: c in items ==> c in w
    ensures r.inventory == s.inventory && r.room == s.room && r.log == s.log
    ensures r.memory.Keys == s.memory.Keys + KeysOf(lib, w, items)
    ensures forall k :: k in s.memory ==> r.memory[k] == s.memory[k]
    ensures forall i :: 0 <= i < |items| && Key(lib, w, items[i]) !in s.memory && FirstWithKey(lib, w, items, i) ==>
      r.memory[Key(lib, w, items[i])] == items[i]
    ensures forall k :: k in r.memory && k !in s.memory ==> r.memory[k] in items
    ensures r.setUp == s.setUp + NewlyRemembered(s.memory, r.memory)
    ensures forall d :: d in s.locks ==> d in r.locks && r.locks[d] == s.locks[d]
    ensures forall d :: d in r.locks && d !in s.locks ==>
      d in r.setUp && d in w && w[d].kind.DoorKind? && r.locks[d] == w[d].kind.authoredUnlocked
    decreases |items|
  {
    if items == [] then s
    else
      var s1 := Remember(lib, w, s, items[0]);
      var r := AddItems(lib, w, s1, items[1..]);
      KeysOfCons(lib, w, items);
      AddItemsStepFirst(lib, w, s, items, s1, r);
      AddItemsStepSetUp(lib, w, s, items, s1, r);
      r
  }

  /** The keys of a non-empty list: the head's key and the tail's. */
  lemma KeysOfCons(lib: Lib, w: Graph, items: seq<Id>)
    requires |items| >= 1 && forall c :: c in items ==> c in w
    ensures KeysOf(lib, w, items) == {Key(lib, w, items[0])} + KeysOf(lib, w, items[1..])
  {
    forall k | k in KeysOf(lib, w, items) ensures k in {Key(lib, w, items[0])} + KeysOf(lib, w, items[1..]) {
      var c :| c in items && Key(lib, w, c) == k;
      if c != items[0] {
        var i :| 0 <= i < |items| && items[i] == c;
        assert items[1..][i - 1] == c;
      }
    }
  }

  /** The first entity with a fresh key is the one remembered under it. */
  lemma AddItemsStepFirst(lib: Lib, w: Graph, s: Session, items: seq<Id>, s1: Session, r: Session)
    requires |items| >= 1 && forall c :: c in items ==> c in w
    requires s1 == Remember(lib, w, s, items[0])
    requires r.memory.Keys == s1.memory.Keys + KeysOf(lib, w, items[1..])
    requires r.memory.Keys == s.memory.Keys + KeysOf(lib, w, items)
    requires forall k :: k in s1.memory ==> r.memory[k] == s1.memory[k]
    requires forall i :: 0 <= i < |items[1..]| && Key(lib, w, items[1..][i]) !in s1.memory && FirstWithKey(lib, w, items[1..], i) ==>
      r.memory[Key(lib, w, items[1..][i])] == items[1..][i]
    ensures forall i :: 0 <= i < |items| && Key(lib, w, items[i]) !in s.memory && FirstWithKey(lib, w, items, i) ==>
      r.memory[Key(lib, w, items[i])] == items[i]
  {
    var tail := items[1..];
    forall i | 0 <= i < |items| && Key(lib, w, items[i]) !in s.memory && FirstWithKey(lib, w, items, i)
      ensures r.memory[Key(lib, w, items[i])] == items[i]
    {
      assert Key(lib, w, items[i]) in KeysOf(lib, w, items);
      if i == 0 {
        assert Key(lib, w, items[0]) in s1.memory && s1.memory[Key(lib, w, items[0])] == items[0];
      } else {
        assert tail[i - 1] == items[i];
        assert Key(lib, w, items[0]) != Key(lib, w, items[i]);
        assert FirstWithKey(lib, w, tail, i - 1) by {
          forall j | 0 <= j < i - 1 ensures Key(lib, w, tail[j]) != Key(lib, w, tail[i - 1]) {
            assert tail[j] == items[j + 1];
          }
        }
      }
    }
  }

  /** The entities set up by the whole list are those set up by the head
      step and by the tail. */
  lemma AddItemsStepSetUp(lib: Lib, w: Graph, s: Session, items: seq<Id>, s1: Session, r: Session)
    requires |items| >= 1 && forall c :: c in items ==> c in w
    requires s1 == Remember(lib, w, s, items[0])
    requires s1.memory.Keys <= r.memory.Keys
    requires forall k :: k in s1.memory ==> r.memory[k] == s1.memory[k]
    requires r.setUp == s1.setUp + NewlyRemembered(s1.memory, r.memory)
    ensures r.setUp == s.setUp + NewlyRemembered(s.memory, r.memory)
  {
    var x := items[0];
    var key := Key(lib, w, x);
    if key in s.memory {
      assert s1 == s;
    } else {
      assert s1.memory == s.memory[key := x];
      assert s1.setUp == s.setUp + {x};
      assert NewlyRemembered(s.memory, r.memory) == {x} + NewlyRemembered(s1.memory, r.memory) by {
        assert r.memory[key] == x;
        forall y | y in NewlyRemembered(s.memory, r.memory)
          ensures y in {x} + NewlyRemembered(s1.memory, r.memory)
        {
          var k :| k in r.memory && k !in s.memory && r.memory[k] == y;
          if k != key { assert k !in s1.memory; }
        }
        forall y | y in NewlyRemembered(s1.memory, r.memory)
          ensures y in NewlyRemembered(s.memory, r.memory)
        {
          var k :| k in r.memory && k !in s1.memory && r.memory[k] == y;
          assert k !in s.memory;
        }
      }
    }
  }

  /** A door that `AddItems` remembers (its key was fresh and no earlier
      entry shares it) has a lock state afterwards. */
  /** An entry that is the first of its key, past the head, is still the
      first of its key in the tail, and its key differs from the head's. */
  lemma FirstWithKeyInTail(lib: Lib, w: Graph, items: seq<Id>, i: nat)
    requires forall c :: c in items ==> c in w
    requires 0 < i < |items| && FirstWithKey(lib, w, items, i)
    ensures items[1..][i - 1] == items[i]
    ensures Key(lib, w, items[0]) != Key(lib, w, items[i])
    ensures FirstWithKey(lib, w, items[1..], i - 1)
  {
    var tail := items[1..];
    forall j | 0 <= j < i - 1 ensures Key(lib, w, tail[j]) != Key(lib, w, tail[i - 1]) {
      assert tail[j] == items[j + 1];
    }
  }

  /** `AddItems` remembers the first entity, then the rest. */
  lemma AddItemsStep(lib: Lib, w: Graph, s: Session, items: seq<Id>)
    requires forall c :: c in items ==> c in w
    requires items != []
    ensures AddItems(lib, w, s, items) == AddItems(lib, w, Remember(lib, w, s, items[0]), items[1..])
  {
  }

  /** Remembering a door under a fresh key sets it up, which gives it a lock
      state. */
  lemma RememberGivesDoorLock(lib: Lib, w: Graph, s: Session, id: Id)
    requires id in w && Key(lib, w, id) !in s.memory && w[id].kind.DoorKind?
    ensures id in Remember(lib, w, s, id).locks
  {
    assert Remember(lib, w, s, id) == Setup(w, s.(memory := s.memory[Key(lib, w, id) := id]), id);
  }

  lemma {:induction false} AddItemsGivesDoorsLocks(lib: Lib, w: Graph, s: Session, items: seq<Id>, i: nat)
    requires forall c :: c in items ==> c in w
    requires i < |items| && Key(lib, w, items[i]) !in s.memory && FirstWithKey(lib, w, items, i)
    requires w[items[i]].kind.DoorKind?
    ensures items[i] in AddItems(lib, w, s, items).locks
    decreases |items|
  {
    var s1 := Remember(lib, w, s, items[0]);
    var tail := items[1..];
    AddItemsStep(lib, w, s, items);
    if i == 0 {
      RememberGivesDoorLock(lib, w, s, items[0]);
    } else {
      FirstWithKeyInTail(lib, w, items, i);
      AddItemsGivesDoorsLocks(lib, w, s1, tail, i - 1);
    }
  }

  /** What any command may do to the session: inventory entries stay with
      their items, lock states only go from locked to unlocked, set-up
      entities stay set up, the log only grows at its end, and a room once
      entered is never left without one. */
  predicate Evolves(s: Session, r: Session) {
    && (forall k :: k in s.inventory ==> k in r.inventory && r.inventory[k] == s.inventory[k])
    && (forall d :: d in s.locks ==> d in r.locks && (s.locks[d] ==> r.locks[d]))
    && s.setUp <= r.setUp
    && s.log <= r.log
    && (s.room.Some? ==> r.room.Some?)
  }

  /** Every entity the session can reach (through room memory, the inventory
      or as the current room) exists and has been set up; the current room
      is a room. */
  predicate Invariant(w: Graph, s: Session) {
    && s.setUp <= w.Keys
    && (forall k :: k in s.memory ==> s.memory[k] in s.setUp)
    && (forall k :: k in s.inventory ==> s.inventory[k] in s.setUp)
    && (s.room.Some? ==> s.room.value in s.setUp && w[s.room.value].kind.RoomKind?)
  }

  /** `AddItems` on the children of a room just entered (empty memory)
      remembers exactly those children's keys, with no residue. */
  lemma AddItemsAfterClear(lib: Lib, w: Graph, s: Session, items: seq<Id>)
    requires forall c :: c in items ==> c in w
    requires s.memory == map[]
    ensures AddItems(lib, w, s, items).memory.Keys == KeysOf(lib, w, items)
    ensures forall k :: k in AddItems(lib, w, s, items).memory ==> AddItems(lib, w, s, items).memory[k] in items
  {
  }

  /** `AddItems` of a list whose keys are all remembered changes nothing. */
  lemma AddItemsAgain(lib: Lib, w: Graph, s: Session, items: seq<Id>)
    requires forall c :: c in items ==> c in w
    requires KeysOf(lib, w, items) <= s.memory.Keys
    ensures AddItems(lib, w, s, items).memory == s.memory
    ensures AddItems(lib, w, s, items).setUp == s.setUp
  {
    var r := AddItems(lib, w, s, items);
    assert r.memory.Keys == s.memory.Keys;
    assert r.memory == s.memory;
    assert NewlyRemembered(s.memory, r.memory) == {};
  }
}

=== FILE: world.dfy ===
/** The authored entity graph: items, rooms and doors, their children and
    their verb bindings (`ActionData`). Records are immutable; all runtime
    state lives in the session. */
module World {
  import opened Base

  /** The seven action handlers (`ActionBase` subclasses). */
  datatype Handler =
    | LookAction | DoorLookAction | EnterAction | UnlockAction
    | TakeAction | ReadAction | NarrateAction

  /** `ActionBase.Type`; the door look inherits `Look`. */
  function TypeOf(h: Handler): ActionType {
    match h
    case LookAction => Look
    case DoorLookAction => Look
    case EnterAction => Enter
    case UnlockAction => Unlock
    case TakeAction => Take
    case ReadAction => Read
    case NarrateAction => Narrate
  }

  /** Handlers typed on `IDoorContext`; every other handler takes any entity. */
  predicate NeedsDoor(h: Handler) {
    h == EnterAction || h == UnlockAction
  }

  /** One verb binding: the handler (`null` is `None`) and its messages. */
  datatype ActionData = ActionData(action: Option<Handler>, message: string, negativeMessage: string)

  /** What distinguishes a room (its doors) and a door (its target room and
      authored lock default) from a plain item. */
  datatype Kind =
    | ItemKind
    | RoomKind(doors: seq<Id>)
    | DoorKind(room: Id, authoredUnlocked: bool)

  datatype Entity = Entity(
    name: string,
    description: string,
    items: seq<Id>,
    actions: seq<ActionData>,
    kind: Kind)

  type Graph = map<Id, Entity>

  /** Every reference resolves, rooms list doors, doors lead to rooms, and,
      whatever verb is looked up, the lookup reads no binding that holds a
      `null` action (it dereferences each binding it reads). */
  predicate EntityWellFormed(w: Graph, e: Entity) {
    && (forall c :: c in e.items ==> c in w)
    && (forall t: ActionType :: LookupSafe(e.actions, t))
    && (e.kind.RoomKind? ==> forall d :: d in e.kind.doors ==> d in w && w[d].kind.DoorKind?)
    && (e.kind.DoorKind? ==> e.kind.room in w && w[e.kind.room].kind.RoomKind?)
  }

  predicate WellFormed(w: Graph) {
    forall id :: id in w ==> EntityWellFormed(w, w[id])
  }

  /** `ActionBase<TContext>.Execute` narrowing: whether `h` can view `e` as
      its context type. */
  predicate Accepts(h: Handler, e: Entity) {
    !NeedsDoor(h) || e.kind.DoorKind?
  }

  /** Handlers typed on `IItemContext`, or on `IItem` directly, never skip an
      entity: only the door handlers can be narrowed away. */
  lemma OnlyDoorHandlersNarrow(h: Handler, e: Entity)
    ensures !Accepts(h, e) <==> (h == EnterAction || h == UnlockAction) && !e.kind.DoorKind?
  {
  }

  /** `GetItems`: a room lists its declared children followed by its doors;
      any other entity lists its children. */
  function GetItems(w: Graph, id: Id): (r: seq<Id>)
    requires id in w
    ensures w[id].kind.RoomKind? ==> |r| == |w[id].items| + |w[id].kind.doors|
    ensures w[id].kind.RoomKind? ==>
      && (forall i :: 0 <= i < |w[id].items| ==> r[i] == w[id].items[i])
      && (forall j :: 0 <= j < |w[id].kind.doors| ==> r[|w[id].items| + j] == w[id].kind.doors[j])
    ensures !w[id].kind.RoomKind? ==> r == w[id].items
    ensures WellFormed(w) ==> forall c :: c in r ==> c in w
  {
    var e := w[id];
    if e.kind.RoomKind? then e.items + e.kind.doors else e.items
  }

  /** `Door.UnlockItems`: the door's own children. */
  function UnlockItems(w: Graph, door: Id): (r: seq<Id>)
    requires door in w && w[door].kind.DoorKind?
    ensures r == GetItems(w, door)
  {
    w[door].items
  }

  /** The source's lookup predicate `action.Action.Type == type`. */
  predicate Matches(a: ActionData, t: ActionType) {
    a.action.Some? && TypeOf(a.action.value) == t
  }

  /** No binding before index `i` matches `t`. */
  predicate NoneBefore(actions: seq<ActionData>, i: nat, t: ActionType)
    requires i <= |actions|
  {
    forall j :: 0 <= j < i ==> !Matches(actions[j], t)
  }

  /** The lookup for `t` reads the bindings up to its first match and stops
      there; none of those it reads holds a `null` action. Bindings after
      the first match are never read, so they may be anything. */
  predicate LookupSafe(actions: seq<ActionData>, t: ActionType) {
    forall i :: 0 <= i < |actions| && NoneBefore(actions, i, t) ==> actions[i].action.Some?
  }

  /** `FirstOrDefault` over the bindings, `None` standing for the default
      (null-action) struct. */
  function FirstMatch(actions: seq<ActionData>, t: ActionType): (r: Option<ActionData>)
    ensures r.Some? ==> Matches(r.value, t)
    ensures r.Some? ==> exists i :: 0 <= i < |actions| && actions[i] == r.value && NoneBefore(actions, i, t)
    ensures r.None? <==> forall i :: 0 <= i < |actions| ==> !Matches(actions[i], t)
    decreases |actions|
  {
    if actions == [] then None
    else if Matches(actions[0], t) then Some(actions[0])
    else
      var rest := FirstMatch(actions[1..], t);
      assert rest.Some? ==> exists i :: 0 <= i < |actions| && actions[i] == rest.value && NoneBefore(actions, i, t) by {
        if rest.Some? {
          var i :| 0 <= i < |actions[1..]| && actions[1..][i] == rest.value && NoneBefore(actions[1..], i, t);
          assert actions[i + 1] == rest.value;
          forall j | 0 <= j < i + 1 ensures !Matches(actions[j], t) {
            if j > 0 { assert actions[j] == actions[1..][j - 1]; }
          }
        }
      }
      assert rest.None? ==> forall i :: 0 <= i < |actions| ==> !Matches(actions[i], t) by {
        if rest.None? {
          forall i | 0 <= i < |actions| ensures !Matches(actions[i], t) {
            if i > 0 { assert actions[i] == actions[1..][i - 1]; }
          }
        }
      }
      rest
  }

  /** Bindings after the first match are never read: appending any bindings,
      `null` ones included, changes neither the lookup's result nor whether
      it reads a `null` binding. */
  lemma {:induction false} LaterBindingsUnread(actions: seq<ActionData>, rest: seq<ActionData>, t: ActionType)
    requires FirstMatch(actions, t).Some?
    ensures FirstMatch(actions + rest, t) == FirstMatch(actions, t)
    ensures LookupSafe(actions, t) ==> LookupSafe(actions + rest, t)
    decreases |actions|
  {
    var xs := actions + rest;
    assert xs[0] == actions[0];
    if !Matches(actions[0], t) {
      assert xs[1..] == actions[1..] + rest;
      LaterBindingsUnread(actions[1..], rest, t);
    }
    if LookupSafe(actions, t) {
      var k :| 0 <= k < |actions| && actions[k] == FirstMatch(actions, t).value && NoneBefore(actions, k, t);
      forall i | 0 <= i < |xs| && NoneBefore(xs, i, t) ensures xs[i].action.Some? {
        if i <= k {
          assert NoneBefore(actions, i, t) by {
            forall j | 0 <= j < i ensures !Matches(actions[j], t) {
              assert actions[j] == xs[j];
            }
          }
        }
      }
    }
  }
}
